=== FILE: README.md ===
# Sadhna tracker — a Dafny model of its rules

The sadhna tracker records devotees' daily spiritual practice (sadhna). A devotee submits one entry per day. The entry holds:
- wake-up and sleep times;
- rounds chanted;
- reading, service and hearing durations.

The server scores each entry. A mentor sees the entries of the devotees assigned to them, ranks the devotees week by week, lists the devotees who have not submitted on a given day, and sends them WhatsApp reminders.

This project models the rules of that application in Dafny and proves properties about them:

- the entry document: field constraints, the unique (user, day) key, and the score the pre-save hook computes, including the wake-up bonus decided by *string* comparison against `"04:00"`;
- the entry handlers over an in-memory entry store: upsert by (user, start of day), the caller's listing, the mentor's listing, delete with an ownership check, the weekly ranking, and missing-submission detection;
- the user document and the registry: schema rules, password hashing only when the password is modified, `comparePassword`, and the register, login and mentor-list handlers;
- the WhatsApp handlers without the provider: the `whatsapp:` prefix, replacement of the first `{name}`, and per-recipient result accounting;
- the client-side validators and the password-strength meter;
- the decision logic of the client pages: the entry form, the signup form, the reminder page's recipient selection, and the route guards.

Modelling choices:
- **Stateful code.** Code that changes state in place is modelled as a class with `modifies` clauses. This covers the entry store, the user registry and the three pages. Each handler is proved against a function that specifies it.
- **Loops.** Loops in the source are methods with loop invariants: the weekly tally and the send loop. The password-strength counter is straight-line code, five conditional increments, and its result is proved equal to `CriteriaMet`.
- **Dates.** Dates are instants in milliseconds. The start of a day is `t - t % 86400000` (UTC).
- **Numbers.** Scores and durations are `real`.
- **Foreign functions.** These are parameters:
  - password hashing;
  - token signing;
  - `parseInt` and `parseFloat` (`None` stands for `NaN`);
  - the WhatsApp provider;
  - the page API calls.
- **Week bounds and the current time.** The week's bounds and "now" are inputs.

The scoring rule is modelled as written. A wake-up time with a one-digit hour, such as `"3:30"`, passes the schema's time pattern. It never earns the early-wake bonus, because as a string it sorts after `"04:00"`. `EntryModel.UnpaddedWakeNoBonus` proves this.

Three points about the code that a reader might otherwise assume differently:
- The time pattern accepts a one-digit hour, such as `"3:30"`, and such a time sorts after `"04:00"` as a string. String order is time order only for zero-padded times (above).
- The weekly ranking sorts by total score alone. Rows with equal totals keep the order in which their devotees first appear among the week's entries. The model sorts stably in the same way and states nothing about ties.
- Upserting has no conflict branch. Its handlers run one after another here, so two upserts of the same key never race.

## Model

| member | source | states |
|---|---|---|
| TimeFormat.IsClockTimeMatchesRegex | backend/models/SadhnaEntry.js:18 | the time test accepts exactly the strings `^([01]?[0-9]\|2[0-3]):[0-5][0-9]$` matches |
| TimeFormat.ClockTimeMeaning | backend/models/SadhnaEntry.js:18-23 | every accepted time is hour 0-23 and minute 0-59, written zero-padded or, below 10 o'clock, with one hour digit |
| TimeFormat.ClockTimesAccepted | backend/models/SadhnaEntry.js:18-23 | every hour 0-23 and minute 0-59 is accepted zero-padded (and with one hour digit below 10) and denotes that hour and minute |
| TimeFormat.PaddedOrderIsChronological | backend/models/SadhnaEntry.js:102 | for zero-padded times, JavaScript's string `<=` agrees with chronological order |
| TimeFormat.UnpaddedAfterFour | backend/models/SadhnaEntry.js:102 | every accepted one-digit-hour time compares greater than `"04:00"` as a string |
| EntryModel.AssignFields | backend/controllers/sadhnaController.js:30-57 | the fields a document holds after assignment: a required field missing fails; a new document defaults `bookName` to "Sb" and `serviceType` to ""; an update with an absent value unsets it; `serviceType` is trimmed |
| EntryModel.Validated | backend/models/SadhnaEntry.js:15-81 | a document is accepted exactly when its assigned fields pass the schema's validators (time pattern, whole non-negative rounds, book enumeration, duration ranges, service type at most 100 characters) |
| EntryModel.PreSave | backend/models/SadhnaEntry.js:95-105 | the saved score is the formula applied to the practice fields, and nothing else about the document changes |
| EntryModel.ClientScoreOverwritten | backend/models/SadhnaEntry.js:97-102 | a score supplied with the document has no effect on the saved document |
| EntryModel.WakeBonusBoundary | backend/models/SadhnaEntry.js:102 | the bonus boundary is inclusive: "04:00" earns 50, "04:01" earns nothing |
| EntryModel.PaddedWakeBonus | backend/models/SadhnaEntry.js:102 | a zero-padded wake-up time earns the bonus exactly when it is 4:00 or earlier |
| EntryModel.UnpaddedWakeNoBonus | backend/models/SadhnaEntry.js:102 | a one-digit-hour wake-up time never earns the bonus, though those before 4 o'clock are earlier than 4:00 |
| EntryModel.ScoreNonNegative | backend/models/SadhnaEntry.js:97-102 | with every field inside its validated range the score is non-negative |
| EntryModel.ScoreMonotone | backend/models/SadhnaEntry.js:97-101 | more rounds, reading, service or hearing never lowers the score |
| EntryModel.ScoreExample | backend/models/SadhnaEntry.js:97-102 | 16 rounds, 30 minutes of reading, 2 hours of service, 1 of hearing and a 03:50 wake-up score 280 |
| UserModel.ParseRole | backend/models/User.js:30-35 | the role enumeration accepts exactly "mentor" and "devotee" |
| UserModel.NormalizeEmail | backend/models/User.js:11-17 | the stored address has no upper-case ASCII letter and no surrounding whitespace |
| UserModel.NormalizeEmailIdempotent | backend/models/User.js:14-16 | normalising a stored address again changes nothing |
| UserModel.NewDraft | backend/models/User.js:5-46 | a new document has its name trimmed, its address normalised, role "devotee" when none is given, and `isActive` true |
| UserModel.EmailPatternOneAt | backend/models/User.js:17 | an address matching the schema's pattern has exactly one `@` |
| UserModel.MentorIdRequiredForDevotees | backend/models/User.js:36-42 | a valid devotee has a mentor; a document without `mentorId` is valid exactly when it is a valid mentor |
| UserModel.HashIfModified | backend/models/User.js:52-60 | the password is replaced by its hash when modified and kept as it is otherwise |
| UserModel.Stored | backend/models/User.js:52-60 | a newly stored user keeps the document's fields with the password hashed |
| UserModel.ComparePasswordAfterSave | backend/models/User.js:63-65 | the registered password is accepted; with an injective hash only it is; a save that leaves the password alone keeps it so |
| SadhnaController.StartOfDay | backend/controllers/sadhnaController.js:22 | the entry date is the start of the day containing the submitted instant |
| SadhnaController.SameDaySameDate | backend/controllers/sadhnaController.js:22-28 | two instants address the same entry date exactly when they fall on the same day |
| SadhnaController.KeyDeterminesEntry | backend/models/SadhnaEntry.js:91-92 | under the unique (userId, date) index an entry is determined by its key |
| SadhnaController.FindKey | backend/controllers/sadhnaController.js:25-28 | the lookup finds an entry with the key, or there is none |
| SadhnaController.FindId | backend/controllers/sadhnaController.js:176 | the lookup finds the entry with the id, or there is none |
| SadhnaController.Upsert | backend/controllers/sadhnaController.js:22-59 | an existing entry for (user, day) is overwritten and keeps its id, user and date (200); otherwise one is created (201); failed validation changes nothing (500); afterwards exactly one entry has the key, it holds the submitted fields and their score, no other key is touched, and the store stays valid |
| SadhnaController.UpdatePreserves | backend/controllers/sadhnaController.js:30-43 | overwriting an entry's fields keeps the store valid and touches no other key |
| SadhnaController.CreatePreserves | backend/controllers/sadhnaController.js:44-59 | appending an entry under a fresh key keeps the store valid |
| SadhnaController.UpsertSameDayTwice | backend/controllers/sadhnaController.js:22-59 | two successful submissions on the same day update one entry: the second is an update of the first's entry, and the store grows by at most one |
| SadhnaController.EntryStore.CreateOrUpdateEntry | backend/controllers/sadhnaController.js:8-65 | the handler's response and new store are those `Upsert` specifies, and the store stays valid |
| SadhnaController.Delete | backend/controllers/sadhnaController.js:174-193 | 404 exactly when no entry has the id, 403 exactly when its owner is someone else, the store unchanged in both; otherwise exactly that entry is removed and the others keep their order |
| SadhnaController.RemovePreserves | backend/controllers/sadhnaController.js:187 | removing one entry keeps the store valid and keeps every other entry |
| SadhnaController.EntryStore.DeleteEntry | backend/controllers/sadhnaController.js:174-193 | the handler's response and new store are those `Delete` specifies |
| SadhnaController.EffectiveLimit | backend/controllers/sadhnaController.js:85 | the limit is 100 when none is given, a limit of 0 means no limit, a positive limit applies as given and a negative one as its absolute value |
| SadhnaController.OneUserStrictlyNewestFirst | backend/controllers/sadhnaController.js:83-84 | one user's entries sorted newest first have strictly decreasing dates |
| SadhnaController.NewestPrefix | backend/controllers/sadhnaController.js:83-85 | cutting a newest-first list keeps the newest entries |
| SadhnaController.MyEntries | backend/controllers/sadhnaController.js:70-92 | only the caller's entries, inside [startDate, endDate] when both are given, newest first, at most the limit (100 when none is given, the absolute value of a non-zero one); a matching entry is left out only when the limit is reached, and it is older than every entry returned |
| SadhnaController.DevoteesEntries | backend/controllers/sadhnaController.js:97-120 | exactly the entries of users whose mentor is the caller, on the given day when one is given, each as often as stored, sorted by date and then score, both descending |
| SadhnaController.DevoteesEntriesOwned | backend/controllers/sadhnaController.js:100-111 | every entry the mentor sees is stored and belongs to one of the mentor's devotees |
| SadhnaController.WeekEntries | backend/controllers/sadhnaController.js:132-139 | the ranking reads exactly the mentor's devotees' entries dated inside the week |
| SadhnaController.EntriesOfMembers | backend/controllers/sadhnaController.js:143-154 | a row's entries are exactly that devotee's entries |
| SadhnaController.AccumulateStep | backend/controllers/sadhnaController.js:143-154 | adding an entry to its devotee's row, creating the row on first sight, keeps one correct row per devotee seen |
| SadhnaController.TallyOfAccumulated | backend/controllers/sadhnaController.js:142-154 | after any entries, the tally holds one correct row per devotee seen, each listed once |
| SadhnaController.TallyScores | backend/controllers/sadhnaController.js:142-154 | the accumulation loop computes the tally of the week's entries |
| SadhnaController.RankingsCorrect | backend/controllers/sadhnaController.js:157 | the sorted rows are correct and non-empty, cover every devotee with an entry, and list each devotee once |
| SadhnaController.GetWeeklyWinner | backend/controllers/sadhnaController.js:125-169 | one row per devotee with an entry that week and none for others; each row holds exactly that devotee's week entries and their summed score; rows in non-increasing score order; the winner is the first row or none |
| SadhnaController.WeekIncludesInactiveDevotees | backend/controllers/sadhnaController.js:132 | unlike missing submissions, the ranking counts an inactive devotee's entries |
| SadhnaController.OwnerIds | backend/controllers/sadhnaController.js:213 | the submitted ids are the owners of the day's entries, one per entry |
| SadhnaController.Summaries | backend/controllers/sadhnaController.js:222-227 | each listed devotee is shown by id, name, email and phone, in order |
| SadhnaController.MissingSubmissions | backend/controllers/sadhnaController.js:198-234 | the target day is the start of the given date or of now; the list holds exactly the caller's active devotees with no entry that day; `total` is its length |
| SadhnaController.MissingMeaning | backend/controllers/sadhnaController.js:213-218 | excluding the owners of the day's entries leaves exactly the active devotees who have not submitted |
| AuthController.ProfileOf | backend/controllers/authController.js:42-51 | the answer carries the user's id, name, email, phone, role and mentorId, and a token for that id |
| AuthController.FindByEmail | backend/controllers/authController.js:19 | the lookup, on the normalised address, finds the user stored under it or there is none |
| AuthController.FindById | backend/controllers/authController.js:26 | the lookup finds the user with the id or there is none |
| AuthController.RegisterDraft | backend/controllers/authController.js:33-40 | `mentorId` is kept for devotees and dropped for everyone else |
| AuthController.Register | backend/controllers/authController.js:14-57 | 400 exactly when the normalised address is taken; 400 exactly when a devotee names an id that is not a mentor's; 500 exactly when the document then fails the schema (a devotee without a mentor); nothing stored in those cases; otherwise the hashed user is appended and answered with their profile and token (201), and the registry stays valid |
| AuthController.AppendPreservesRegistry | backend/controllers/authController.js:33-40 | appending a user with a fresh normalised address, the next id and a valid mentor link keeps the registry valid |
| AuthController.UserRegistry.RegisterUser | backend/controllers/authController.js:14-57 | the handler's response and new registry are those `Register` specifies |
| AuthController.Login | backend/controllers/authController.js:62-93 | 401 with one message exactly when no user under the normalised address accepts the password; otherwise that user's profile and token |
| AuthController.RegisterThenLogin | backend/controllers/authController.js:33-88 | a user who registered logs in with the same address and password and gets the same profile |
| AuthController.RegisterTwiceRefused | backend/controllers/authController.js:19-22 | registering again with the same address, in any letter case, is refused with 400 |
| AuthController.NameBeforeTotalPreorder | backend/controllers/authController.js:115 | ordering by name is a total preorder, so the sort is well defined |
| AuthController.MentorSummaries | backend/controllers/authController.js:114 | each mentor is shown by id, name and email, in order |
| AuthController.Mentors | backend/controllers/authController.js:111-122 | exactly the active users with role mentor, one row each, sorted by name ascending |
| WhatsAppController.FormatPhone | backend/controllers/whatsappController.js:35 | the address starts with "whatsapp:"; an address that already does is kept, any other gets the prefix |
| WhatsAppController.FormatPhoneIdempotent | backend/controllers/whatsappController.js:35 | formatting a formatted address changes nothing |
| WhatsAppController.Personalise | backend/controllers/whatsappController.js:76 | a message without `{name}` is sent as it is |
| WhatsAppController.PersonaliseFirstOnly | backend/controllers/whatsappController.js:76 | the name replaces the first `{name}` and the rest, later placeholders included, stays literal |
| WhatsAppController.PersonaliseTwoPlaceholders | backend/controllers/whatsappController.js:138 | of two placeholders only the first is filled in |
| WhatsAppController.SendSingle | backend/controllers/whatsappController.js:26-51 | 400 without sending exactly when the phone or message is missing or empty; otherwise the message goes to the formatted address and the provider's answer decides 200 or 500 |
| WhatsAppController.NamelessRecipientText | backend/controllers/whatsappController.js:76-138 | a recipient without a name (or, in the bulk send, with an empty one) is sent the message with "devotee" in place of the first `{name}` by the bulk send, and with "undefined" by the reminder |
| WhatsAppController.ResultFor | backend/controllers/whatsappController.js:70-94 | a recipient's result carries their phone and name, and is a success exactly when they have a phone and the provider accepts the personalised message to the formatted address |
| WhatsAppController.SendEach | backend/controllers/whatsappController.js:70-94 | one result per recipient, in input order; a failure does not stop later recipients |
| WhatsAppController.ReportCounts | backend/controllers/whatsappController.js:96-103 | no failures exactly when every recipient was delivered to; no successes exactly when none was; a recipient without a phone counts as failed |
| WhatsAppController.SendBulk | backend/controllers/whatsappController.js:56-111 | 400 without sending exactly when recipients is missing, not an array or empty, or the message is missing; otherwise a report with one result per recipient, `totalSent` the recipient count and `successCount + failedCount == totalSent` |
| WhatsAppController.DefaultReminderPersonalised | backend/controllers/whatsappController.js:120 | the default reminder greets the devotee by name and is signed by the mentor, whatever the mentor's name holds |
| WhatsAppController.ReminderText | backend/controllers/whatsappController.js:122 | the custom message when it is non-empty, the default reminder otherwise |
| WhatsAppController.SendReminder | backend/controllers/whatsappController.js:116-173 | 500 exactly when `devotees` is not an array; otherwise a report on every devotee, as the bulk send's but with the name as given |
| Validators.EmailLikeMatchesShape | frontend/src/utils/validators.js:5 | the email test accepts exactly the addresses `^[^\s@]+@[^\s@]+\.[^\s@]+$` matches |
| Validators.Email | frontend/src/utils/validators.js:4-9 | valid exactly when the error is empty; an empty address is required; any other is valid exactly when it has the shape |
| Validators.Password | frontend/src/utils/validators.js:11-15 | valid exactly when non-empty and at least `minLength` long, with the matching messages |
| Validators.Name | frontend/src/utils/validators.js:17-22 | valid exactly when at least two characters once trimmed and only ASCII letters and whitespace |
| Validators.RemoveWhitespace | frontend/src/utils/validators.js:27 | the result has no whitespace |
| Validators.RemoveWhitespaceSpace | frontend/src/utils/validators.js:27 | a space is dropped wherever it stands |
| Validators.Phone | frontend/src/utils/validators.js:24-30 | valid exactly when it starts with `+` and the rest, whitespace removed, is 10 to 15 digits |
| Validators.PhoneIgnoresSpaces | frontend/src/utils/validators.js:27-28 | a space between the digits does not change the verdict |
| Validators.Number | frontend/src/utils/validators.js:32-41 | '', null and undefined are required; an unparsable value is not a number; otherwise valid exactly when min <= value <= max, both inclusive |
| Validators.Required | frontend/src/utils/validators.js:43-48 | valid exactly when the value is a string that is not only whitespace |
| Validators.Time | frontend/src/utils/validators.js:50-56 | valid exactly when the value matches the time pattern; an empty one is required |
| Validators.TimeAcceptsClockTimes | frontend/src/utils/validators.js:52 | every accepted time names hour 0-23 and minute 0-59 |
| Validators.CriteriaMet | frontend/src/utils/validators.js:63-68 | a password meets at most five criteria |
| Validators.GetPasswordStrength | frontend/src/utils/validators.js:60-74 | empty gives strength 0 and no label; otherwise the strength is the number of criteria met, labelled Weak (up to 2), Fair (3), Good (4), Strong (5), with their colours |
| Validators.CriteriaMonotone | frontend/src/utils/validators.js:63-68 | typing more characters never lowers the strength |
| Validators.AcceptedPasswordNotEmptyStrength | frontend/src/utils/validators.js:60-68 | a password the password validator accepts meets at least one criterion |
| SadhnaEntryPage.InitialForm | frontend/src/pages/SadhnaEntry.jsx:25-35 | the form starts on today with book "Sb" and every other field empty |
| SadhnaEntryPage.WithValue | frontend/src/pages/SadhnaEntry.jsx:66-70 | a change sets that field and leaves the others and the date |
| SadhnaEntryPage.ValidFormInRange | frontend/src/pages/SadhnaEntry.jsx:89-97 | a valid form has both times in the time format, rounds in [0, 64], reading in [0, 600], service and hearing in [0, 24] |
| SadhnaEntryPage.FieldErrors | frontend/src/pages/SadhnaEntry.jsx:43-64 | an error entry exactly for each touched validated field, holding its validator's message |
| SadhnaEntryPage.AllTouchedErrorsMatchValidity | frontend/src/pages/SadhnaEntry.jsx:43-97 | with every field touched, the form is valid exactly when no field shows an error |
| SadhnaEntryPage.PayloadOf | frontend/src/pages/SadhnaEntry.jsx:122-129 | rounds through `parseInt`, the durations through `parseFloat`, everything else as entered |
| SadhnaEntryPage.ValidFormPayload | frontend/src/pages/SadhnaEntry.jsx:89-129 | a valid form's payload carries parsed durations inside the form's ranges |
| SadhnaEntryPage.FailureText | frontend/src/pages/SadhnaEntry.jsx:137 | the server's message when it sent a non-empty one, "Failed to save entry" otherwise |
| SadhnaEntryPage.SadhnaEntryForm.constructor | frontend/src/pages/SadhnaEntry.jsx:25-40 | the page starts with the initial form, nothing touched, no messages |
| SadhnaEntryPage.SadhnaEntryForm.HandleChange | frontend/src/pages/SadhnaEntry.jsx:66-73 | the field takes the value and both the error and the success message are cleared |
| SadhnaEntryPage.SadhnaEntryForm.HandleDateChange | frontend/src/pages/SadhnaEntry.jsx:75-80 | only the date changes |
| SadhnaEntryPage.SadhnaEntryForm.HandleBlur | frontend/src/pages/SadhnaEntry.jsx:82-87 | the field becomes touched and nothing else changes |
| SadhnaEntryPage.SadhnaEntryForm.HandleSubmit | frontend/src/pages/SadhnaEntry.jsx:99-141 | all six validated fields become touched; an invalid form gets "Please fix the errors above" and no request; a valid one sends its payload once and shows the success message or the failure text |
| SignupPage.WithValue | frontend/src/pages/Signup.jsx:82-86 | a change gives the field the new value and leaves every other field as it was |
| SignupPage.MentorRequirement | frontend/src/pages/Signup.jsx:97-104 | a devotee with a blank mentor is invalid; a mentor's form is judged without the mentor field |
| SignupPage.FieldErrors | frontend/src/pages/Signup.jsx:53-71 | errors for touched text fields, and for the mentor field only when touched and the role is "devotee" |
| SignupPage.AllTouchedErrorsMatchValidity | frontend/src/pages/Signup.jsx:53-104 | with every field touched and either role chosen, the form is valid exactly when no field shows an error |
| SignupPage.SignupPageState.constructor | frontend/src/pages/Signup.jsx:33-46 | the form starts empty with role "devotee", nothing touched |
| SignupPage.SignupPageState.HandleChange | frontend/src/pages/Signup.jsx:82-88 | the field takes the value and the error is cleared |
| SignupPage.SignupPageState.HandleBlur | frontend/src/pages/Signup.jsx:90-95 | the field becomes touched and nothing else changes |
| SignupPage.SignupPageState.HandleSubmit | frontend/src/pages/Signup.jsx:106-134 | all five fields become touched; registration is called exactly when the form is valid; success navigates to /dashboard, failure shows its error |
| WhatsAppPage.Toggle | frontend/src/pages/WhatsAppMessaging.jsx:55-61 | a selected id is removed, the other ids keep their order, and the count drops by one when no id was selected twice; an unselected one is appended |
| WhatsAppPage.ToggleTwice | frontend/src/pages/WhatsAppMessaging.jsx:55-61 | toggling an unselected id twice restores the selection |
| WhatsAppPage.ToggleNoDuplicates | frontend/src/pages/WhatsAppMessaging.jsx:55-61 | toggling keeps the selection free of duplicates |
| WhatsAppPage.IdsOf | frontend/src/pages/WhatsAppMessaging.jsx:46 | the ids of the listed devotees, in list order |
| WhatsAppPage.SelectAll | frontend/src/pages/WhatsAppMessaging.jsx:63-69 | clears the selection when its size equals the list's, and selects every listed id in order otherwise |
| WhatsAppPage.SelectAllSelectsEveryone | frontend/src/pages/WhatsAppMessaging.jsx:63-69 | a select-all that does not clear selects every listed devotee |
| WhatsAppPage.Recipients | frontend/src/pages/WhatsAppMessaging.jsx:87 | exactly the listed devotees whose id is selected, in list order: each recipient sits at a strictly increasing position of the list, and every position skipped holds an unselected devotee |
| WhatsAppPage.LoadedSelectionSendsToAll | frontend/src/pages/WhatsAppMessaging.jsx:45-46 | with the selection made on loading, every listed devotee is sent to, in list order |
| WhatsAppPage.MessagingPage.constructor | frontend/src/pages/WhatsAppMessaging.jsx:23-29 | the page starts with nothing listed or selected and no messages |
| WhatsAppPage.MessagingPage.FetchMissingSubmissions | frontend/src/pages/WhatsAppMessaging.jsx:41-53 | a loaded list (empty when absent) replaces the old one and is selected in full; a failed load shows "Failed to load devotees list" and keeps the list |
| WhatsAppPage.MessagingPage.HandleToggleDevotee | frontend/src/pages/WhatsAppMessaging.jsx:55-61 | the selection becomes its toggle; the list, message, error, success, loading and sending flags are unchanged |
| WhatsAppPage.MessagingPage.HandleSelectAll | frontend/src/pages/WhatsAppMessaging.jsx:63-69 | the selection becomes its select-all; the list, message, error, success, loading and sending flags are unchanged |
| WhatsAppPage.MessagingPage.HandleSendMessages | frontend/src/pages/WhatsAppMessaging.jsx:71-105 | no request, with an error, exactly when nothing is selected or the message is blank; otherwise the selected listed devotees are sent the message once, then the counts or the error are shown and sending ends; a refused send leaves the success message and the sending flag alone, and loading never changes |
| AppRoutes.ProtectedRoute | frontend/src/App.jsx:39-55 | the placeholder while loading; /login for a visitor; /dashboard for a non-mentor on a mentor-only route; the page exactly when signed in and allowed |
| AppRoutes.PublicRoute | frontend/src/App.jsx:58-70 | the placeholder while loading; /dashboard for a signed-in user; the page exactly for a visitor |
| AppRoutes.RouteFor | frontend/src/App.jsx:80-143 | /login and /signup are public; /dashboard and /sadhna-entry need sign-in; /devotees, /weekly-winner and /whatsapp are mentor-only; every other path has no page |
| AppRoutes.AccessControl | frontend/src/App.jsx:39-143 | whatever the path, a protected page renders only for a signed-in user, a mentor page only for a mentor, and login and signup only for a visitor |
| AppRoutes.PagesReachable | frontend/src/App.jsx:80-139 | each page renders at its path for whoever may see it |
| AppRoutes.RedirectsSettle | frontend/src/App.jsx:39-143 | once loaded, any path reaches a rendered page within two redirects: the dashboard when signed in, the login page otherwise |
| AppRoutes.NavbarOnProtectedPages | frontend/src/App.jsx:77 | on every rendered page the navigation bar shows exactly when the page is a protected one, so never on the login or signup page |

## Left out

- Dates: `date-fns` calendar arithmetic and time zones are not modelled. The start of a day is computed in UTC on millisecond instants. The week's bounds, "now" and "today" are inputs. `format(date, 'yyyy-MM-dd')` is not modelled: the entry page's payload carries the picked day as an instant.
- Floating point: scores and durations are exact `real`s, so IEEE rounding is not modelled. `parseInt` and `parseFloat` are function parameters, so their prefix-parsing rules are not modelled.
- Persistence: the Mongoose and MongoDB details are not modelled:
  - the entry and user collections are sequences, and the unique indexes are invariants of the store;
  - `populate` is not modelled;
  - invalid ObjectId casts are not modelled;
  - the race between `findOne` and `create` under concurrent requests is not modelled;
  - a database error is modelled only where a validation failure causes it (the 500 answers).
- Invalid dates are not modelled. In the source, an absent or unparsable date becomes an Invalid Date. The query cast then fails and the handler answers 500. This applies to the upsert's `date`, `getMyEntries`' `startDate` and `endDate`, and the missing-submissions `date`. In the model every date is an integer instant.
- Schema setters: the email setters (lower-case, then trim) are assumed to apply to `findOne({ email })` query values too.
- Lower-casing covers ASCII letters only.
- Strings are sequences of code points, not UTF-16 units.
- bcrypt: the salt and the hash are one function parameter, so different salts are not modelled. The JWT secret and expiry are not modelled; a token is a function of the user id.
- The WhatsApp provider, including the `AC_dummy` mock branch, is a function from (address, body) to an outcome.
- WhatsAppController.SendEach: the provider answers the same (address, body) the same way every time, so it does not model a provider that fails for one recipient and succeeds for a second recipient sent the identical message.
- WhatsAppController.SendBulk: a `recipients` array with a null element is not modelled. In the source, reading `recipient.phone` throws, the catch block reads it again, and the request answers 500. The model's recipients are always objects, so its send never answers 500.
- WhatsAppController.SendSingle: a `phone` that is truthy but not a string is not modelled; in the source `startsWith` throws and the request answers 500.
- JSON `null` and other non-string body values are not modelled. Body fields are strings or absent. For example, a `null` bookName on create fails the schema's `required` check in the source, while `EntryModel.AssignFields` treats it as absent and applies the "Sb" default.
- WhatsAppController.SendReminder: a `devotees` array whose elements are not objects (null, say) is not modelled. A recipient without a phone is modelled.
- `String.prototype.replace` special patterns (`$&`, `$1`) in a recipient's name are not modelled: the name is inserted literally.
- getMe is not modelled (a lookup by id). Neither are the Express routes, the authentication middleware, the server setup, the API client or the express-validator chains. The entry ranges those chains repeat are the schema's, modelled in `EntryModel.Validated`.
- Register with an absent `email`, `name`, `password` or `phone` body field is not modelled; every field is a string.
- SadhnaController.MissingSubmissions: states which devotees are listed and the count, not that the list keeps the users' order.
- SadhnaController.GetWeeklyWinner: the order of rows with equal totals is not stated. The model sorts stably, as JavaScript's `sort` does.
- AuthController.Mentors: the order of mentors with equal names is not stated.
- The pages' presentational helpers (`getFieldColor`, `showSuccessIcon`) are not modelled. Neither are the dashboard, the devotee list, the weekly-winner page, the login page, the welcome page, the navigation bar's contents and the entry card.
- The reminder page's default message template is not modelled, because it depends on date formatting; the page's message is an input to its constructor. The refresh two seconds after a successful send is a timer and is not modelled. The date picker's re-fetch is not modelled.
- The mentor list the signup page fetches, and its password-visibility toggle, are not modelled.
- `fieldErrors` is not stored state in the pages' classes: it is the function `FieldErrors` of the stored form and touched set, which is what the pages' effects recompute on every change.
- Route matching is exact string equality. React Router's case-insensitivity and trailing-slash tolerance are not modelled.

=== FILE: src/app_routes.dfy ===
/**
 * The client's routing: the guard wrapped around each page, the route
 * table, and when the navigation bar is shown. The authentication flags come
 * from the authentication context, which is an input here.
 */
module AppRoutes {
  import opened Wrappers

  /** The flags the authentication context provides. */
  datatype AuthState = AuthState(isAuthenticated: bool, isMentor: bool, loading: bool)

  datatype Page = Login | Signup | Dashboard | SadhnaEntry | DevoteesList | WeeklyWinner | WhatsAppMessaging

  /** What a route shows: the loading placeholder, a redirect, or its page. */
  datatype Outcome = Placeholder | RedirectTo(path: string) | Render(page: Page)

  /** How a route's page is guarded. */
  datatype Guard = Public | Protected(mentorOnly: bool)

  const LoginPath: string := "/login"
  const DashboardPath: string := "/dashboard"

  /**
   * `ProtectedRoute`: the placeholder while loading, the login page for a
   * visitor, the dashboard for a non-mentor on a mentor-only route, and the
   * page otherwise.
   */
  function ProtectedRoute(auth: AuthState, mentorOnly: bool, page: Page): (o: Outcome)
    ensures o.Render? <==> !auth.loading && auth.isAuthenticated && (mentorOnly ==> auth.isMentor)
    ensures o.Render? ==> o.page == page
    ensures o == Placeholder <==> auth.loading
    ensures !auth.loading && !auth.isAuthenticated ==> o == RedirectTo(LoginPath)
    ensures !auth.loading && auth.isAuthenticated && mentorOnly && !auth.isMentor ==> o == RedirectTo(DashboardPath)
  {
    if auth.loading then Placeholder
    else if !auth.isAuthenticated then RedirectTo(LoginPath)
    else if mentorOnly && !auth.isMentor then RedirectTo(DashboardPath)
    else Render(page)
  }

  /** `PublicRoute`: the placeholder while loading, the dashboard for a signed-in user, the page otherwise. */
  function PublicRoute(auth: AuthState, page: Page): (o: Outcome)
    ensures o.Render? <==> !auth.loading && !auth.isAuthenticated
    ensures o.Render? ==> o.page == page
    ensures o == Placeholder <==> auth.loading
    ensures !auth.loading && auth.isAuthenticated ==> o == RedirectTo(DashboardPath)
  {
    if auth.loading then Placeholder
    else if auth.isAuthenticated then RedirectTo(DashboardPath)
    else Render(page)
  }

  /** The route table: each declared path with its guard and page; `None` for "/" and unmatched paths. */
  function RouteFor(path: string): (r: Option<(Guard, Page)>)
    ensures r == Some((Public, Login)) <==> path == LoginPath
    ensures r == Some((Public, Signup)) <==> path == "/signup"
    ensures r == Some((Protected(false), Dashboard)) <==> path == DashboardPath
    ensures r == Some((Protected(false), SadhnaEntry)) <==> path == "/sadhna-entry"
    ensures r == Some((Protected(true), DevoteesList)) <==> path == "/devotees"
    ensures r == Some((Protected(true), WeeklyWinner)) <==> path == "/weekly-winner"
    ensures r == Some((Protected(true), WhatsAppMessaging)) <==> path == "/whatsapp"
    ensures r.None? <==> path !in {LoginPath, "/signup", DashboardPath, "/sadhna-entry", "/devotees", "/weekly-winner", "/whatsapp"}
  {
    if path == LoginPath then Some((Public, Login))
    else if path == "/signup" then Some((Public, Signup))
    else if path == DashboardPath then Some((Protected(false), Dashboard))
    else if path == "/sadhna-entry" then Some((Protected(false), SadhnaEntry))
    else if path == "/devotees" then Some((Protected(true), DevoteesList))
    else if path == "/weekly-winner" then Some((Protected(true), WeeklyWinner))
    else if path == "/whatsapp" then Some((Protected(true), WhatsAppMessaging))
    else None
  }

  /** What visiting `path` shows: its route's guarded page, or a redirect to the dashboard. */
  function Resolve(path: string, auth: AuthState): Outcome {
    match RouteFor(path)
    case None => RedirectTo(DashboardPath)
    case Some((Public, page)) => PublicRoute(auth, page)
    case Some((Protected(mentorOnly), page)) => ProtectedRoute(auth, mentorOnly, page)
  }

  /** The pages only mentors may see. */
  predicate MentorPage(page: Page) {
    page == DevoteesList || page == WeeklyWinner || page == WhatsAppMessaging
  }

  /** The pages only signed-in users may see. */
  predicate ProtectedPage(page: Page) {
    page != Login && page != Signup
  }

  /**
   * Whatever the path, a page is rendered only to those allowed to see it:
   * protected pages to signed-in users, mentor pages to mentors, and the
   * login and signup pages to visitors only.
   */
  lemma AccessControl(path: string, auth: AuthState)
    ensures Resolve(path, auth).Render? ==> !auth.loading
    ensures Resolve(path, auth).Render? && ProtectedPage(Resolve(path, auth).page) ==> auth.isAuthenticated
    ensures Resolve(path, auth).Render? && MentorPage(Resolve(path, auth).page) ==> auth.isMentor
    ensures Resolve(path, auth).Render? && !ProtectedPage(Resolve(path, auth).page) ==> !auth.isAuthenticated
  {
  }

  /** Every page is reachable by whoever may see it: its path renders it. */
  lemma PagesReachable(auth: AuthState)
    requires !auth.loading
    ensures !auth.isAuthenticated ==> Resolve(LoginPath, auth) == Render(Login) && Resolve("/signup", auth) == Render(Signup)
    ensures auth.isAuthenticated ==> Resolve(DashboardPath, auth) == Render(Dashboard) && Resolve("/sadhna-entry", auth) == Render(SadhnaEntry)
    ensures auth.isAuthenticated && auth.isMentor ==>
              && Resolve("/devotees", auth) == Render(DevoteesList)
              && Resolve("/weekly-winner", auth) == Render(WeeklyWinner)
              && Resolve("/whatsapp", auth) == Render(WhatsAppMessaging)
  {
  }

  /**
   * Once the authentication state has loaded, following redirects from any
   * path reaches a rendered page after at most two of them: the dashboard
   * for a signed-in user, the login page for a visitor.
   */
  lemma RedirectsSettle(path: string, auth: AuthState)
    requires !auth.loading
    ensures var o1 := Resolve(path, auth);
            || o1.Render?
            || (o1.RedirectTo? &&
                var o2 := Resolve(o1.path, auth);
                || o2.Render?
                || (o2.RedirectTo? && Resolve(o2.path, auth) == Render(if auth.isAuthenticated then Dashboard else Login)))
  {
  }

  /** Whether the navigation bar is shown: to signed-in users. */
  predicate ShowsNavbar(auth: AuthState) {
    auth.isAuthenticated
  }

  /**
   * On every rendered page the navigation bar shows exactly when the page is
   * a protected one: never on the login or signup page.
   */
  lemma NavbarOnProtectedPages(path: string, auth: AuthState)
    ensures Resolve(path, auth).Render? ==> (ShowsNavbar(auth) <==> ProtectedPage(Resolve(path, auth).page))
  {
    AccessControl(path, auth);
  }
}

=== FILE: src/auth_controller.dfy ===
/**
 * Registration, login and the mentor list over an in-memory user registry.
 * Password hashing and token signing are functions the registry is given.
 */
module AuthController {
  import opened Wrappers
  import opened Ids
  import opened Strings
  import opened Seqs
  import opened Sorting
  import opened UserModel

  /** What register and login answer with: the user's public fields and a token for the id. */
  datatype Profile = Profile(id: UserId, name: string, email: string, phone: string, role: Role,
                             mentorId: Option<UserId>, token: string)

  function ProfileOf(u: User, token: UserId -> string): (p: Profile)
    ensures p.id == u.id && p.token == token(u.id) && p.mentorId == u.mentorId && p.role == u.role
    ensures p.name == u.name && p.email == u.email && p.phone == u.phone
  {
    Profile(u.id, u.name, u.email, u.phone, u.role, u.mentorId, token(u.id))
  }

  /* ---------------------------------------------------------- the registry */

  ghost predicate EmailsUnique(users: seq<User>) {
    forall i, j :: 0 <= i < j < |users| ==> users[i].email != users[j].email
  }

  /**
   * What every stored user satisfies: unique normalised email, unique id below
   * the next one, a devotee references a stored mentor, a mentor references
   * nobody.
   */
  ghost predicate ValidRegistry(users: seq<User>, nextId: nat) {
    && EmailsUnique(users)
    && (forall i, j :: 0 <= i < j < |users| ==> users[i].id != users[j].id)
    && (forall i :: 0 <= i < |users| ==> users[i].id < nextId)
    && (forall i :: 0 <= i < |users| ==> NormalizeEmail(users[i].email) == users[i].email)
    && (forall i :: 0 <= i < |users| ==> users[i].role == Mentor ==> users[i].mentorId.None?)
    && (forall i :: 0 <= i < |users| ==> users[i].role == Devotee ==>
          users[i].mentorId.Some? && IsMentor(users, users[i].mentorId.value))
  }

  /** Some stored user with that id has role "mentor". */
  predicate IsMentor(users: seq<User>, id: UserId) {
    exists m :: m in users && m.id == id && m.role == Mentor
  }

  /** `User.findOne({ email })`, the address going through the schema's setters. */
  function FindByEmail(users: seq<User>, email: string): (r: Option<nat>)
    ensures r.Some? ==> r.value < |users| && users[r.value].email == NormalizeEmail(email)
    ensures r.None? ==> forall u :: u in users ==> u.email != NormalizeEmail(email)
    decreases |users|
  {
    if users == [] then None
    else if users[|users| - 1].email == NormalizeEmail(email) then Some(|users| - 1)
    else
      var r := FindByEmail(users[..|users| - 1], email);
      assert users == users[..|users| - 1] + [users[|users| - 1]];
      r
  }

  /** `User.findById(id)` */
  function FindById(users: seq<User>, id: UserId): (r: Option<nat>)
    ensures r.Some? ==> r.value < |users| && users[r.value].id == id
    ensures r.None? ==> forall u :: u in users ==> u.id != id
    decreases |users|
  {
    if users == [] then None
    else if users[|users| - 1].id == id then Some(|users| - 1)
    else
      var r := FindById(users[..|users| - 1], id);
      assert users == users[..|users| - 1] + [users[|users| - 1]];
      r
  }

  /* -------------------------------------------------------------- register */

  /** The body of a registration; `mentorId` is None when absent or empty. */
  datatype RegisterRequest = RegisterRequest(name: string, email: string, password: string, phone: string,
                                             role: Option<string>, mentorId: Option<UserId>)

  datatype RegisterResponse = Registered(profile: Profile) | AlreadyExists | InvalidMentor | RegistrationFailed

  function RegisterStatus(r: RegisterResponse): int {
    match r
    case Registered(_) => 201
    case AlreadyExists => 400
    case InvalidMentor => 400
    case RegistrationFailed => 500
  }

  function RegisterMessage(r: RegisterResponse): string {
    match r
    case Registered(_) => ""
    case AlreadyExists => "User already exists with this email"
    case InvalidMentor => "Invalid mentor ID"
    case RegistrationFailed => "Server error during registration"
  }

  /** The document `User.create` is given: `mentorId` is kept only when the role is "devotee". */
  function RegisterDraft(req: RegisterRequest): (d: UserDraft)
    ensures req.role != Some(DevoteeRole) ==> d.mentorId.None?
    ensures req.role == Some(DevoteeRole) ==> d.mentorId == req.mentorId
  {
    NewDraft(req.name, req.email, req.password, req.phone, req.role,
             if req.role == Some(DevoteeRole) then req.mentorId else None)
  }

  /** The mentor check: it runs only for a devotee who names a mentor. */
  predicate MentorCheckFails(users: seq<User>, req: RegisterRequest) {
    req.role == Some(DevoteeRole) && req.mentorId.Some? && !IsMentor(users, req.mentorId.value)
  }

  datatype RegisterOutcome = RegisterOutcome(response: RegisterResponse, users: seq<User>, nextId: nat)

  /**
   * `register`: 400 when the normalised address is taken, 400 when a devotee
   * names an id that is not a mentor's, 500 when the document fails the
   * schema (nothing stored in these three cases); otherwise the user is stored
   * with the password hashed and answered with 201, their profile and a token.
   */
  function Register(users: seq<User>, nextId: nat, req: RegisterRequest,
                    hash: string -> string, token: UserId -> string): (o: RegisterOutcome)
    requires ValidRegistry(users, nextId)
    ensures ValidRegistry(o.users, o.nextId)
    ensures o.response.AlreadyExists? <==> exists u :: u in users && u.email == NormalizeEmail(req.email)
    ensures o.response.InvalidMentor? <==>
              (forall u :: u in users ==> u.email != NormalizeEmail(req.email)) && MentorCheckFails(users, req)
    ensures o.response.RegistrationFailed? <==>
              && (forall u :: u in users ==> u.email != NormalizeEmail(req.email))
              && !MentorCheckFails(users, req) && !ValidDraft(RegisterDraft(req))
    ensures !o.response.Registered? ==> o.users == users && o.nextId == nextId
    ensures o.response.Registered? ==>
              && ValidDraft(RegisterDraft(req))
              && o.users == users + [Stored(nextId, RegisterDraft(req), hash)]
              && o.nextId == nextId + 1
              && o.response.profile == ProfileOf(Stored(nextId, RegisterDraft(req), hash), token)
  {
    if FindByEmail(users, req.email).Some? then RegisterOutcome(AlreadyExists, users, nextId)
    else if req.role == Some(DevoteeRole) && req.mentorId.Some? &&
            (var m := FindById(users, req.mentorId.value); m.None? || users[m.value].role != Mentor) then
      assert MentorCheckFails(users, req) by {
        var m := FindById(users, req.mentorId.value);
        if m.Some? {
          forall x | x in users && x.id == req.mentorId.value ensures x.role != Mentor {
            var i :| 0 <= i < |users| && users[i] == x;
            assert users[i].id == users[m.value].id;
          }
        }
      }
      RegisterOutcome(InvalidMentor, users, nextId)
    else
      var draft := RegisterDraft(req);
      if !ValidDraft(draft) then RegisterOutcome(RegistrationFailed, users, nextId)
      else
        var user := Stored(nextId, draft, hash);
        assert !MentorCheckFails(users, req) by {
          if req.role == Some(DevoteeRole) && req.mentorId.Some? {
            var m := FindById(users, req.mentorId.value);
            assert users[m.value] in users;
          }
        }
        assert user.email == NormalizeEmail(req.email);
        NormalizeEmailIdempotent(req.email);
        assert user.role == Devotee ==> draft.role == DevoteeRole;
        assert user.role == Mentor ==> draft.role == MentorRole;
        AppendPreservesRegistry(users, nextId, user);
        RegisterOutcome(Registered(ProfileOf(user, token)), users + [user], nextId + 1)
  }

  lemma AppendPreservesRegistry(users: seq<User>, nextId: nat, u: User)
    requires ValidRegistry(users, nextId)
    requires u.id == nextId && NormalizeEmail(u.email) == u.email
    requires forall x :: x in users ==> x.email != u.email
    requires u.role == Mentor ==> u.mentorId.None?
    requires u.role == Devotee ==> u.mentorId.Some? && IsMentor(users, u.mentorId.value)
    ensures ValidRegistry(users + [u], nextId + 1)
  {
    AppendKeepsUnique(users, nextId, u);
    AppendKeepsMentors(users, u);
  }

  lemma AppendKeepsUnique(users: seq<User>, nextId: nat, u: User)
    requires EmailsUnique(users) && forall i :: 0 <= i < |users| ==> users[i].id < nextId
    requires forall i, j :: 0 <= i < j < |users| ==> users[i].id != users[j].id
    requires u.id == nextId && forall x :: x in users ==> x.email != u.email
    ensures EmailsUnique(users + [u])
    ensures forall i, j :: 0 <= i < j < |users + [u]| ==> (users + [u])[i].id != (users + [u])[j].id
    ensures forall i :: 0 <= i < |users + [u]| ==> (users + [u])[i].id < nextId + 1
  {
    var users' := users + [u];
    forall i, j | 0 <= i < j < |users'| ensures users'[i].email != users'[j].email && users'[i].id != users'[j].id {
      assert users'[i] == users[i];
      if j == |users| {
        assert users[i] in users;
      } else {
        assert users'[j] == users[j];
      }
    }
  }

  lemma AppendKeepsMentors(users: seq<User>, u: User)
    requires forall i :: 0 <= i < |users| ==> users[i].role == Devotee ==>
               users[i].mentorId.Some? && IsMentor(users, users[i].mentorId.value)
    requires u.role == Devotee ==> u.mentorId.Some? && IsMentor(users, u.mentorId.value)
    ensures forall i :: 0 <= i < |users + [u]| ==> (users + [u])[i].role == Devotee ==>
              (users + [u])[i].mentorId.Some? && IsMentor(users + [u], (users + [u])[i].mentorId.value)
  {
    var users' := users + [u];
    forall i | 0 <= i < |users'| && users'[i].role == Devotee
      ensures users'[i].mentorId.Some? && IsMentor(users', users'[i].mentorId.value)
    {
      assert users'[i] == if i < |users| then users[i] else u;
      var m :| m in users && m.id == users'[i].mentorId.value && m.role == Mentor;
      assert m in users';
    }
  }

  /** The registry: the stored users and the next id to hand out. */
  class UserRegistry {
    var users: seq<User>
    var nextId: nat
    const hash: string -> string
    const token: UserId -> string

    ghost predicate Valid()
      reads this
    {
      ValidRegistry(users, nextId)
    }

    constructor (hash: string -> string, token: UserId -> string)
      ensures Valid() && users == [] && nextId == 0
      ensures this.hash == hash && this.token == token
    {
      users := [];
      nextId := 0;
      this.hash := hash;
      this.token := token;
    }

    /** `register` */
    method RegisterUser(req: RegisterRequest) returns (response: RegisterResponse)
      requires Valid()
      modifies this
      ensures Valid()
      ensures RegisterOutcome(response, users, nextId) == Register(old(users), old(nextId), req, hash, token)
    {
      var outcome := Register(users, nextId, req, hash, token);
      users, nextId := outcome.users, outcome.nextId;
      response := outcome.response;
    }
  }

  /* ----------------------------------------------------------------- login */

  datatype LoginResponse = LoggedIn(profile: Profile) | InvalidCredentials

  function LoginStatus(r: LoginResponse): int {
    if r.LoggedIn? then 200 else 401
  }

  /** An unknown address and a wrong password get the same answer. */
  function LoginMessage(r: LoginResponse): string {
    if r.LoggedIn? then "" else "Invalid email or password"
  }

  /**
   * `login`: the user stored under the normalised address, when the password
   * matches its hash, gets their profile and a token; every other request
   * gets 401.
   */
  function Login(users: seq<User>, email: string, password: string,
                 hash: string -> string, token: UserId -> string): (r: LoginResponse)
    requires EmailsUnique(users)
    ensures r.InvalidCredentials? <==>
              !exists u :: u in users && u.email == NormalizeEmail(email) && ComparePassword(u, password, hash)
    ensures r.LoggedIn? ==>
              exists u :: u in users && u.email == NormalizeEmail(email) && r.profile == ProfileOf(u, token)
  {
    match FindByEmail(users, email)
    case None => InvalidCredentials
    case Some(i) =>
      var user := users[i];
      if !ComparePassword(user, password, hash) then
        assert forall u :: u in users && u.email == user.email ==> u == user by {
          forall u | u in users && u.email == user.email ensures u == user {
            var j :| 0 <= j < |users| && users[j] == u;
            assert !(i < j) && !(j < i);
          }
        }
        InvalidCredentials
      else LoggedIn(ProfileOf(user, token))
  }

  /** A user who registered can log in with the same address and password and gets the same profile. */
  lemma RegisterThenLogin(users: seq<User>, nextId: nat, req: RegisterRequest,
                          hash: string -> string, token: UserId -> string)
    requires ValidRegistry(users, nextId)
    requires Register(users, nextId, req, hash, token).response.Registered?
    ensures var o := Register(users, nextId, req, hash, token);
            Login(o.users, req.email, req.password, hash, token) == LoggedIn(o.response.profile)
  {
    var o := Register(users, nextId, req, hash, token);
    var d := RegisterDraft(req);
    var i := FindByEmail(o.users, req.email).value;
    assert o.users[|users|] == Stored(nextId, d, hash);
    ComparePasswordAfterSave(nextId, d, hash, req.password);
  }

  /** Registering a second time with the same address, in any letter case, is refused. */
  lemma RegisterTwiceRefused(users: seq<User>, nextId: nat, req: RegisterRequest, req2: RegisterRequest,
                             hash: string -> string, token: UserId -> string)
    requires ValidRegistry(users, nextId)
    requires Register(users, nextId, req, hash, token).response.Registered?
    requires NormalizeEmail(req2.email) == NormalizeEmail(req.email)
    ensures var o := Register(users, nextId, req, hash, token);
            Register(o.users, o.nextId, req2, hash, token).response == AlreadyExists
  {
    var o := Register(users, nextId, req, hash, token);
    assert o.users[|users|] in o.users;
  }

  /* ------------------------------------------------------------ getMentors */

  /** What the mentor list shows of a mentor (`select('name email')` keeps the id). */
  datatype MentorSummary = MentorSummary(id: UserId, name: string, email: string)

  predicate ActiveMentor(u: User) {
    u.role == Mentor && u.isActive
  }

  predicate NameBefore(a: User, b: User) {
    LexLe(a.name, b.name)
  }

  lemma NameBeforeTotalPreorder()
    ensures TotalPreorder(NameBefore)
  {
    forall a: User, b: User ensures NameBefore(a, b) || NameBefore(b, a) {
      LexLeTotal(a.name, b.name);
    }
    forall a: User, b: User, c: User | NameBefore(a, b) && NameBefore(b, c) ensures NameBefore(a, c) {
      LexLeTransitive(a.name, b.name, c.name);
    }
  }

  function MentorSummaries(us: seq<User>): (r: seq<MentorSummary>)
    ensures |r| == |us| && forall k :: 0 <= k < |us| ==> r[k] == MentorSummary(us[k].id, us[k].name, us[k].email)
  {
    seq(|us|, k requires 0 <= k < |us| => MentorSummary(us[k].id, us[k].name, us[k].email))
  }

  /**
   * `getMentors`: the active users with role "mentor", each once, sorted by
   * name in ascending order.
   */
  function Mentors(users: seq<User>): (r: seq<MentorSummary>)
    ensures forall i, j :: 0 <= i < j < |r| ==> LexLe(r[i].name, r[j].name)
    ensures forall u :: u in users && ActiveMentor(u) ==> MentorSummary(u.id, u.name, u.email) in r
    ensures forall m :: m in r ==> exists u :: u in users && ActiveMentor(u) && m == MentorSummary(u.id, u.name, u.email)
    ensures |r| == |Filter(users, ActiveMentor)|
  {
    var mentors := Filter(users, ActiveMentor);
    NameBeforeTotalPreorder();
    var sorted := Sort(mentors, NameBefore);
    var r := MentorSummaries(sorted);
    SameMembers(mentors, sorted);
    MentorSummariesMembers(sorted);
    r
  }

  lemma SameMembers(a: seq<User>, b: seq<User>)
    requires multiset(a) == multiset(b)
    ensures forall u :: u in a <==> u in b
  {
    forall u ensures u in a <==> u in b {
      assert u in a <==> u in multiset(a);
      assert u in b <==> u in multiset(b);
    }
  }

  /** The summaries are exactly those of the listed users. */
  lemma MentorSummariesMembers(us: seq<User>)
    ensures forall u :: u in us ==> MentorSummary(u.id, u.name, u.email) in MentorSummaries(us)
    ensures forall m :: m in MentorSummaries(us) ==> exists u :: u in us && m == MentorSummary(u.id, u.name, u.email)
  {
    var r := MentorSummaries(us);
    forall u | u in us ensures MentorSummary(u.id, u.name, u.email) in r {
      var k :| 0 <= k < |us| && us[k] == u;
      assert r[k] == MentorSummary(u.id, u.name, u.email);
    }
    forall m | m in r ensures exists u :: u in us && m == MentorSummary(u.id, u.name, u.email) {
      var k :| 0 <= k < |r| && r[k] == m;
      assert us[k] in us;
    }
  }
}

=== FILE: src/entry_model.dfy ===
/**
 * The sadhna entry document: its fields and their validators, the unique
 * (userId, date) key, and the score the pre-save hook computes.
 */
module EntryModel {
  import opened Wrappers
  import opened Strings
  import opened TimeFormat
  import opened Ids

  /** The `bookName` enumeration and its default. */
  const BookNames: seq<string> := ["Sb", "Bg", "CC", "NOD", "NOI", "Other"]
  const DefaultBook: string := "Sb"

  const MaxServiceTypeLength: nat := 100
  const MaxReadingMinutes: real := 1440.0
  const MaxHours: real := 24.0

  /** Waking at or before this time, in string order, earns the bonus. */
  const EarlyWake: string := "04:00"
  const WakeBonus: real := 50.0

  /** The practice fields of a document, once assigned from a request. */
  datatype Practice = Practice(
    wakeUpTime: string,
    sleepTime: string,
    roundsChanted: real,
    bookName: string,
    readingDuration: real,
    serviceDuration: real,
    serviceType: Option<string>,   // None: the path is unset
    hearingDuration: real)

  /** A stored entry; `date` is the start of its day, as an instant in milliseconds. */
  datatype Entry = Entry(id: EntryId, userId: UserId, date: int, practice: Practice, totalScore: real)

  /** The unique index `{ userId: 1, date: 1 }`. */
  datatype Key = Key(userId: UserId, date: int)

  function KeyOf(e: Entry): Key {
    Key(e.userId, e.date)
  }

  /** A request body; `None` where the client sent no value. */
  datatype Submission = Submission(
    date: int,
    wakeUpTime: Option<string>,
    sleepTime: Option<string>,
    roundsChanted: Option<real>,
    bookName: Option<string>,
    readingDuration: Option<real>,
    serviceDuration: Option<real>,
    serviceType: Option<string>,
    hearingDuration: Option<real>)

  /**
   * The practice fields a document holds once a request's values are assigned
   * to it. A new document takes the defaults for an absent `bookName` ("Sb")
   * and `serviceType` (""); assigning an absent value to an existing document
   * unsets that path. `serviceType` passes through the trim setter. The result
   * is `None` when a required field is then missing.
   */
  function AssignFields(sub: Submission, creating: bool): (r: Option<Practice>)
    ensures r.Some? <==>
      && sub.wakeUpTime.Some? && sub.sleepTime.Some? && sub.roundsChanted.Some?
      && (sub.bookName.Some? || creating)
      && sub.readingDuration.Some? && sub.serviceDuration.Some? && sub.hearingDuration.Some?
    ensures r.Some? && creating && sub.bookName.None? ==> r.value.bookName == DefaultBook
    ensures r.Some? && creating && sub.serviceType.None? ==> r.value.serviceType == Some("")
    ensures r.Some? && !creating && sub.serviceType.None? ==> r.value.serviceType.None?
    ensures r.Some? && sub.serviceType.Some? ==> r.value.serviceType == Some(Trim(sub.serviceType.value))
  {
    if sub.wakeUpTime.None? || sub.sleepTime.None? || sub.roundsChanted.None?
      || (sub.bookName.None? && !creating)
      || sub.readingDuration.None? || sub.serviceDuration.None? || sub.hearingDuration.None?
    then None
    else
      var serviceType :=
        if sub.serviceType.Some? then Some(Trim(sub.serviceType.value))
        else if creating then Some("")
        else None;
      Some(Practice(
        sub.wakeUpTime.value, sub.sleepTime.value, sub.roundsChanted.value,
        sub.bookName.GetOr(DefaultBook), sub.readingDuration.value, sub.serviceDuration.value,
        serviceType, sub.hearingDuration.value))
  }

  predicate IsWholeNumber(x: real) {
    x == x.Floor as real
  }

  /** The schema's validators on the practice fields. */
  predicate ValidPractice(p: Practice) {
    && IsClockTime(p.wakeUpTime)
    && IsClockTime(p.sleepTime)
    && p.roundsChanted >= 0.0 && IsWholeNumber(p.roundsChanted)
    && p.bookName in BookNames
    && 0.0 <= p.readingDuration <= MaxReadingMinutes
    && 0.0 <= p.serviceDuration <= MaxHours
    && (p.serviceType.Some? ==> |p.serviceType.value| <= MaxServiceTypeLength)
    && 0.0 <= p.hearingDuration <= MaxHours
  }

  /** The fields of a request once assigned and validated, or `None` when saving would fail validation. */
  function Validated(sub: Submission, creating: bool): (r: Option<Practice>)
    ensures r.Some? ==> ValidPractice(r.value)
    ensures r.Some? <==> AssignFields(sub, creating).Some? && ValidPractice(AssignFields(sub, creating).value)
  {
    var p := AssignFields(sub, creating);
    if p.Some? && ValidPractice(p.value) then p else None
  }

  /** The wake-up bonus: decided by comparing the strings, not the times. */
  function WakeBonusFor(wakeUpTime: string): real {
    if LexLe(wakeUpTime, EarlyWake) then WakeBonus else 0.0
  }

  /** The scoring formula of the pre-save hook. */
  function Score(p: Practice): real {
    p.roundsChanted * 10.0
    + p.readingDuration * 0.5
    + p.serviceDuration * 20.0
    + p.hearingDuration * 15.0
    + WakeBonusFor(p.wakeUpTime)
  }

  /**
   * The pre-save hook: whatever score the document carried, the saved
   * document's score is the one computed from its practice fields; nothing
   * else about it changes.
   */
  function PreSave(e: Entry): (r: Entry)
    ensures r.totalScore == Score(e.practice)
    ensures r.(totalScore := e.totalScore) == e
  {
    e.(totalScore := Score(e.practice))
  }

  /** A score supplied with the document is overwritten: two documents differing only in it save alike. */
  lemma ClientScoreOverwritten(e: Entry, x: real)
    ensures PreSave(e.(totalScore := x)) == PreSave(e)
  {
  }

  /** The bonus boundary is inclusive: "04:00" earns it, "04:01" does not. */
  lemma WakeBonusBoundary()
    ensures WakeBonusFor("04:00") == WakeBonus
    ensures WakeBonusFor("04:01") == 0.0
  {
    LexLeReflexive("04:00");
    LexLeFive("04:01", "04:00");
  }

  /** For a zero-padded time the string comparison is the chronological one: the bonus is for 4:00 or earlier. */
  lemma PaddedWakeBonus(wakeUpTime: string)
    requires IsClockTime(wakeUpTime) && |wakeUpTime| == 5
    ensures WakeBonusFor(wakeUpTime) == WakeBonus <==> MinuteOfDay(wakeUpTime) <= 4 * 60
  {
    ClockTimesAccepted(4, 0);
    assert Padded(4, 0) == EarlyWake;
    PaddedOrderIsChronological(wakeUpTime, EarlyWake);
  }

  /**
   * A one-digit hour passes the time pattern but never earns the bonus:
   * "3:30" and "0:30" get nothing, though they are before 4:00.
   */
  lemma UnpaddedWakeNoBonus(wakeUpTime: string)
    requires IsClockTime(wakeUpTime) && |wakeUpTime| == 4
    ensures WakeBonusFor(wakeUpTime) == 0.0
    ensures Hours(wakeUpTime) < 4 ==> MinuteOfDay(wakeUpTime) < 4 * 60
  {
    UnpaddedAfterFour(wakeUpTime);
    ClockTimeMeaning(wakeUpTime);
  }

  /** With every field inside its validated range the score is non-negative. */
  lemma ScoreNonNegative(p: Practice)
    requires ValidPractice(p)
    ensures Score(p) >= 0.0
  {
  }

  /** More rounds, reading, service or hearing never lowers the score. */
  lemma ScoreMonotone(p: Practice, q: Practice)
    requires q.wakeUpTime == p.wakeUpTime
    requires q.roundsChanted >= p.roundsChanted && q.readingDuration >= p.readingDuration
    requires q.serviceDuration >= p.serviceDuration && q.hearingDuration >= p.hearingDuration
    ensures Score(q) >= Score(p)
  {
  }

  /** 16 rounds, 30 minutes of reading, 2 hours of service, 1 of hearing, up at 03:50: 280 points. */
  lemma ScoreExample()
    ensures Score(Practice("03:50", "21:30", 16.0, "Sb", 30.0, 2.0, Some(""), 1.0)) == 280.0
  {
    LexLeFive("03:50", "04:00");
  }
}

=== FILE: src/ids.dfy ===
/** Document identifiers (MongoDB ObjectIds), compared by value. */
module Ids {
  type UserId = nat
  type EntryId = nat
}

=== FILE: src/sadhna_controller.dfy ===
/**
 * The sadhna entry handlers over an in-memory entry store: upsert keyed by
 * (user, start of day), the caller's listing, the mentor's listing, deletion
 * with an ownership check, the weekly ranking and missing-submission
 * detection. Users are the registry's records; dates are instants in
 * milliseconds, and the week window and "now" are parameters.
 */
module SadhnaController {
  import opened Wrappers
  import opened Ids
  import opened Seqs
  import opened Sorting
  import opened EntryModel
  import opened UserModel

  const MsPerDay: int := 86400000

  /** `startOfDay`: the instant at which the day containing `t` begins. */
  function StartOfDay(t: int): (d: int)
    ensures d <= t < d + MsPerDay
    ensures d % MsPerDay == 0
  {
    t - t % MsPerDay
  }

  /** Two instants get the same entry date exactly when they fall on the same day. */
  lemma SameDaySameDate(a: int, b: int)
    ensures StartOfDay(a) == StartOfDay(b) <==> a / MsPerDay == b / MsPerDay
  {
    assert a == MsPerDay * (a / MsPerDay) + a % MsPerDay;
    assert b == MsPerDay * (b / MsPerDay) + b % MsPerDay;
  }

  /* ---------------------------------------------------------------- the store */

  /** The unique index on (userId, date): no two stored entries share a key. */
  ghost predicate KeysUnique(entries: seq<Entry>) {
    forall i, j :: 0 <= i < j < |entries| ==> KeyOf(entries[i]) != KeyOf(entries[j])
  }

  ghost predicate IdsUnique(entries: seq<Entry>) {
    forall i, j :: 0 <= i < j < |entries| ==> entries[i].id != entries[j].id
  }

  /**
   * What every stored entry satisfies: unique key and id, an id below the next
   * one to hand out, a date at the start of a day, valid practice fields, and
   * the score the pre-save hook computed.
   */
  ghost predicate ValidStore(entries: seq<Entry>, nextId: nat) {
    && KeysUnique(entries)
    && IdsUnique(entries)
    && (forall i :: 0 <= i < |entries| ==> entries[i].id < nextId)
    && (forall i :: 0 <= i < |entries| ==> entries[i].date == StartOfDay(entries[i].date))
    && (forall i :: 0 <= i < |entries| ==> ValidPractice(entries[i].practice))
    && (forall i :: 0 <= i < |entries| ==> entries[i].totalScore == Score(entries[i].practice))
  }

  /** With unique keys, an entry is determined by its key. */
  lemma KeyDeterminesEntry(entries: seq<Entry>, a: Entry, b: Entry)
    requires KeysUnique(entries) && a in entries && b in entries && KeyOf(a) == KeyOf(b)
    ensures a == b
  {
    var i :| 0 <= i < |entries| && entries[i] == a;
    var j :| 0 <= j < |entries| && entries[j] == b;
    assert !(i < j) && !(j < i);
  }

  lemma KeysUniqueNoDuplicates(entries: seq<Entry>)
    requires KeysUnique(entries)
    ensures NoDuplicates(entries)
  {
  }

  /** `findOne({ userId, date })`: the position of the entry with key `k`. */
  function FindKey(entries: seq<Entry>, k: Key): (r: Option<nat>)
    ensures r.Some? ==> r.value < |entries| && KeyOf(entries[r.value]) == k
    ensures r.None? ==> forall i :: 0 <= i < |entries| ==> KeyOf(entries[i]) != k
    decreases |entries|
  {
    if entries == [] then None
    else if KeyOf(entries[|entries| - 1]) == k then Some(|entries| - 1)
    else FindKey(entries[..|entries| - 1], k)
  }

  /** `findById(id)`: the position of the entry with that id. */
  function FindId(entries: seq<Entry>, id: EntryId): (r: Option<nat>)
    ensures r.Some? ==> r.value < |entries| && entries[r.value].id == id
    ensures r.None? ==> forall i :: 0 <= i < |entries| ==> entries[i].id != id
    decreases |entries|
  {
    if entries == [] then None
    else if entries[|entries| - 1].id == id then Some(|entries| - 1)
    else FindId(entries[..|entries| - 1], id)
  }

  /* ---------------------------------------------------- createOrUpdateEntry */

  datatype UpsertResponse = Updated(entry: Entry) | Created(entry: Entry) | UpsertFailed

  function UpsertStatus(r: UpsertResponse): int {
    match r
    case Updated(_) => 200
    case Created(_) => 201
    case UpsertFailed => 500
  }

  function UpsertMessage(r: UpsertResponse): string {
    match r
    case Updated(_) => "Sadhna entry updated successfully"
    case Created(_) => "Sadhna entry created successfully"
    case UpsertFailed => "Server error"
  }

  datatype UpsertOutcome = UpsertOutcome(response: UpsertResponse, entries: seq<Entry>, nextId: nat)

  /**
   * `createOrUpdateEntry`: the date is moved to the start of its day; an entry
   * already stored under (user, day) has its eight practice fields overwritten
   * and keeps its id, user and date; otherwise a new entry is created. When the
   * document fails validation nothing changes and the answer is 500. On
   * success exactly one entry has that key, it carries the submitted fields and
   * their score, and no entry with another key is added, changed or removed.
   */
  function Upsert(entries: seq<Entry>, nextId: nat, user: UserId, sub: Submission): (o: UpsertOutcome)
    requires ValidStore(entries, nextId)
    ensures ValidStore(o.entries, o.nextId)
    ensures var key := Key(user, StartOfDay(sub.date));
            var existing := FindKey(entries, key);
            && (o.response.UpsertFailed? <==> Validated(sub, existing.None?).None?)
            && (o.response.UpsertFailed? ==> o.entries == entries && o.nextId == nextId)
            && (o.response.Updated? ==>
                  existing.Some? && o.response.entry.id == entries[existing.value].id && |o.entries| == |entries|)
            && (o.response.Created? ==>
                  existing.None? && o.response.entry.id == nextId && |o.entries| == |entries| + 1)
            && (!o.response.UpsertFailed? ==>
                  && KeyOf(o.response.entry) == key
                  && o.response.entry.practice == Validated(sub, existing.None?).value
                  && o.response.entry.totalScore == Score(o.response.entry.practice)
                  && o.response.entry in o.entries
                  && (forall e :: e in o.entries && KeyOf(e) == key ==> e == o.response.entry)
                  && (forall e :: KeyOf(e) != key ==> (e in o.entries <==> e in entries)))
  {
    var key := Key(user, StartOfDay(sub.date));
    match FindKey(entries, key)
    case Some(i) =>
      (match Validated(sub, false)
       case None => UpsertOutcome(UpsertFailed, entries, nextId)
       case Some(p) =>
         var e := PreSave(entries[i].(practice := p));
         var updated := entries[i := e];
         UpdatePreserves(entries, nextId, i, e);
         assert updated[i] == e;
         UpsertOutcome(Updated(e), updated, nextId))
    case None =>
      match Validated(sub, true)
      case None => UpsertOutcome(UpsertFailed, entries, nextId)
      case Some(p) =>
        var e := PreSave(Entry(nextId, user, key.date, p, 0.0));
        CreatePreserves(entries, nextId, e);
        UpsertOutcome(Created(e), entries + [e], nextId + 1)
  }

  lemma UpdatePreserves(entries: seq<Entry>, nextId: nat, i: nat, e: Entry)
    requires ValidStore(entries, nextId) && i < |entries|
    requires KeyOf(e) == KeyOf(entries[i]) && e.id == entries[i].id
    requires ValidPractice(e.practice) && e.totalScore == Score(e.practice)
    ensures ValidStore(entries[i := e], nextId)
    ensures forall x :: x in entries[i := e] && KeyOf(x) == KeyOf(e) ==> x == e
    ensures forall x :: KeyOf(x) != KeyOf(e) ==> (x in entries[i := e] <==> x in entries)
  {
    var updated := entries[i := e];
    forall x | KeyOf(x) != KeyOf(e) ensures x in updated <==> x in entries {
      if x in entries {
        var j :| 0 <= j < |entries| && entries[j] == x;
        assert updated[j] == x;
      }
      if x in updated {
        var j :| 0 <= j < |updated| && updated[j] == x;
        assert entries[j] == x;
      }
    }
  }

  lemma CreatePreserves(entries: seq<Entry>, nextId: nat, e: Entry)
    requires ValidStore(entries, nextId) && FindKey(entries, KeyOf(e)).None? && e.id == nextId
    requires e.date == StartOfDay(e.date) && ValidPractice(e.practice) && e.totalScore == Score(e.practice)
    ensures ValidStore(entries + [e], nextId + 1)
    ensures forall x :: x in entries + [e] && KeyOf(x) == KeyOf(e) ==> x == e
  {
  }

  /**
   * Two submissions by one user on the same calendar day address one entry:
   * after both succeed exactly one entry has that key, holding the second
   * submission's fields, and the store grew by at most one entry.
   */
  lemma UpsertSameDayTwice(entries: seq<Entry>, nextId: nat, user: UserId, s1: Submission, s2: Submission)
    requires ValidStore(entries, nextId)
    requires s1.date / MsPerDay == s2.date / MsPerDay
    requires !Upsert(entries, nextId, user, s1).response.UpsertFailed?
    requires var o1 := Upsert(entries, nextId, user, s1);
             !Upsert(o1.entries, o1.nextId, user, s2).response.UpsertFailed?
    ensures var o1 := Upsert(entries, nextId, user, s1);
            var o2 := Upsert(o1.entries, o1.nextId, user, s2);
            && o2.response.Updated?
            && o2.response.entry.id == o1.response.entry.id
            && (forall e :: e in o2.entries && KeyOf(e) == Key(user, StartOfDay(s1.date)) ==> e == o2.response.entry)
            && |o2.entries| <= |entries| + 1
  {
    SameDaySameDate(s1.date, s2.date);
    var o1 := Upsert(entries, nextId, user, s1);
    var key := Key(user, StartOfDay(s1.date));
    var j :| 0 <= j < |o1.entries| && o1.entries[j] == o1.response.entry;
    var found := FindKey(o1.entries, key);
    assert found.Some?;
    KeyDeterminesEntry(o1.entries, o1.entries[found.value], o1.response.entry);
  }

  /* -------------------------------------------------------------- deleteEntry */

  datatype DeleteResponse = Deleted | EntryNotFound | NotAuthorized

  function DeleteStatus(r: DeleteResponse): int {
    match r
    case Deleted => 200
    case EntryNotFound => 404
    case NotAuthorized => 403
  }

  function DeleteMessage(r: DeleteResponse): string {
    match r
    case Deleted => "Entry deleted successfully"
    case EntryNotFound => "Entry not found"
    case NotAuthorized => "Not authorized to delete this entry"
  }

  /**
   * `deleteEntry`: 404 for an unknown id, 403 when the caller does not own the
   * entry (the store unchanged in both cases); otherwise exactly that entry is
   * removed and the others keep their order.
   */
  function Delete(entries: seq<Entry>, nextId: nat, caller: UserId, id: EntryId): (r: (DeleteResponse, seq<Entry>))
    requires ValidStore(entries, nextId)
    ensures ValidStore(r.1, nextId)
    ensures r.0 == EntryNotFound <==> forall e :: e in entries ==> e.id != id
    ensures r.0 == NotAuthorized <==> exists e :: e in entries && e.id == id && e.userId != caller
    ensures r.0 != Deleted ==> r.1 == entries
    ensures r.0 == Deleted ==> |r.1| == |entries| - 1 && forall e :: e in r.1 <==> e in entries && e.id != id
    ensures r.0 == Deleted ==>
              FindId(entries, id).Some? &&
              r.1 == entries[..FindId(entries, id).value] + entries[FindId(entries, id).value + 1..]
  {
    match FindId(entries, id)
    case None => (EntryNotFound, entries)
    case Some(i) =>
      if entries[i].userId != caller then (NotAuthorized, entries)
      else
        var rest := entries[..i] + entries[i + 1..];
        RemovePreserves(entries, nextId, i);
        (Deleted, rest)
  }

  lemma RemovePreserves(entries: seq<Entry>, nextId: nat, i: nat)
    requires ValidStore(entries, nextId) && i < |entries|
    ensures ValidStore(entries[..i] + entries[i + 1..], nextId)
    ensures forall e :: e in entries[..i] + entries[i + 1..] <==> e in entries && e.id != entries[i].id
  {
    RemoveKeepsUnique(entries, i);
    RemoveKeepsFields(entries, nextId, i);
    RemoveMembership(entries, i);
  }

  lemma RemoveKeepsUnique(entries: seq<Entry>, i: nat)
    requires KeysUnique(entries) && IdsUnique(entries) && i < |entries|
    ensures KeysUnique(entries[..i] + entries[i + 1..]) && IdsUnique(entries[..i] + entries[i + 1..])
  {
    var rest := entries[..i] + entries[i + 1..];
    RemoveIndex(entries, i);
    forall a, b | 0 <= a < b < |rest|
      ensures KeyOf(rest[a]) != KeyOf(rest[b]) && rest[a].id != rest[b].id
    {
      var ia, ib := Skip(a, i), Skip(b, i);
      assert rest[a] == entries[ia] && rest[b] == entries[ib] && ia < ib;
    }
  }

  lemma RemoveKeepsFields(entries: seq<Entry>, nextId: nat, i: nat)
    requires ValidStore(entries, nextId) && i < |entries|
    ensures var rest := entries[..i] + entries[i + 1..];
            && (forall k :: 0 <= k < |rest| ==> rest[k].id < nextId)
            && (forall k :: 0 <= k < |rest| ==> rest[k].date == StartOfDay(rest[k].date))
            && (forall k :: 0 <= k < |rest| ==> ValidPractice(rest[k].practice))
            && (forall k :: 0 <= k < |rest| ==> rest[k].totalScore == Score(rest[k].practice))
  {
    RemoveIndex(entries, i);
  }

  lemma RemoveMembership(entries: seq<Entry>, i: nat)
    requires IdsUnique(entries) && i < |entries|
    ensures forall e :: e in entries[..i] + entries[i + 1..] <==> e in entries && e.id != entries[i].id
  {
    var rest := entries[..i] + entries[i + 1..];
    RemoveIndex(entries, i);
    forall e | e in entries && e.id != entries[i].id ensures e in rest {
      var j :| 0 <= j < |entries| && entries[j] == e;
      assert rest[if j < i then j else j - 1] == e;
    }
  }

  /** The position in the old sequence of the `k`-th element left after removing position `i`. */
  function Skip(k: nat, i: nat): (j: nat)
    ensures j == k || j == k + 1
    ensures j != i
  {
    if k < i then k else k + 1
  }

  lemma RemoveIndex(entries: seq<Entry>, i: nat)
    requires i < |entries|
    ensures |entries[..i] + entries[i + 1..]| == |entries| - 1
    ensures forall k :: 0 <= k < |entries| - 1 ==> (entries[..i] + entries[i + 1..])[k] == entries[Skip(k, i)]
  {
  }

  /* -------------------------------------------------------------- the store */

  /** The entry collection: a sequence of entries and the next id to hand out. */
  class EntryStore {
    var entries: seq<Entry>
    var nextId: nat

    ghost predicate Valid()
      reads this
    {
      ValidStore(entries, nextId)
    }

    constructor ()
      ensures Valid() && entries == [] && nextId == 0
    {
      entries := [];
      nextId := 0;
    }

    /** `createOrUpdateEntry` for the authenticated `user`. */
    method CreateOrUpdateEntry(user: UserId, sub: Submission) returns (response: UpsertResponse)
      requires Valid()
      modifies this
      ensures Valid()
      ensures UpsertOutcome(response, entries, nextId) == Upsert(old(entries), old(nextId), user, sub)
    {
      var entryDate := StartOfDay(sub.date);
      var existing := FindKey(entries, Key(user, entryDate));
      if existing.Some? {
        var fields := Validated(sub, false);
        if fields.None? {
          return UpsertFailed;
        }
        var entry := entries[existing.value].(practice := fields.value);
        entry := PreSave(entry);
        UpdatePreserves(entries, nextId, existing.value, entry);
        entries := entries[existing.value := entry];
        response := Updated(entry);
      } else {
        var fields := Validated(sub, true);
        if fields.None? {
          return UpsertFailed;
        }
        var entry := PreSave(Entry(nextId, user, entryDate, fields.value, 0.0));
        CreatePreserves(entries, nextId, entry);
        entries := entries + [entry];
        nextId := nextId + 1;
        response := Created(entry);
      }
    }

    /** `deleteEntry` for the authenticated `caller`. */
    method DeleteEntry(caller: UserId, id: EntryId) returns (response: DeleteResponse)
      requires Valid()
      modifies this
      ensures Valid() && nextId == old(nextId)
      ensures (response, entries) == Delete(old(entries), old(nextId), caller, id)
    {
      var found := FindId(entries, id);
      if found.None? {
        return EntryNotFound;
      }
      var i := found.value;
      if entries[i].userId != caller {
        return NotAuthorized;
      }
      RemovePreserves(entries, nextId, i);
      entries := entries[..i] + entries[i + 1..];
      response := Deleted;
    }
  }

  /* ------------------------------------------------------------- getMyEntries */

  /** `limit ? parseInt(limit) : 100` as the database applies it: 0 is no limit, a negative limit counts as its absolute value. */
  function EffectiveLimit(limit: Option<int>): (n: Option<nat>)
    ensures limit.None? ==> n == Some(100)
    ensures n.None? <==> limit == Some(0)
    ensures limit.Some? && limit.value > 0 ==> n == Some(limit.value)
    ensures limit.Some? && limit.value < 0 ==> n == Some(-limit.value)
  {
    var l := limit.GetOr(100);
    if l == 0 then None else if l < 0 then Some(-l) else Some(l)
  }

  /** The date range applies only when both bounds are given; both are inclusive. */
  predicate InRange(e: Entry, startDate: Option<int>, endDate: Option<int>) {
    startDate.Some? && endDate.Some? ==> startDate.value <= e.date <= endDate.value
  }

  predicate NotOlder(a: Entry, b: Entry) {
    a.date >= b.date
  }

  /** Entries of one user sorted newest first have strictly decreasing dates: their dates differ. */
  lemma OneUserStrictlyNewestFirst(entries: seq<Entry>, user: UserId, mine: seq<Entry>, sorted: seq<Entry>)
    requires KeysUnique(entries)
    requires forall e :: e in mine ==> e in entries && e.userId == user
    requires NoDuplicates(mine) && multiset(sorted) == multiset(mine)
    requires SortedBy(sorted, NotOlder)
    ensures forall i, j :: 0 <= i < j < |sorted| ==> sorted[i].date > sorted[j].date
  {
    NoDuplicatesPermutation(mine, sorted);
    forall i, j | 0 <= i < j < |sorted| ensures sorted[i].date > sorted[j].date {
      assert sorted[i] in multiset(mine) && sorted[j] in multiset(mine);
      if sorted[i].date == sorted[j].date {
        KeyDeterminesEntry(entries, sorted[i], sorted[j]);
      }
    }
  }

  /** The query `getMyEntries` runs: the caller's entries, in the date range when one is given. */
  predicate MyEntry(e: Entry, caller: UserId, startDate: Option<int>, endDate: Option<int>) {
    e.userId == caller && InRange(e, startDate, endDate)
  }

  /** Of a sequence with strictly decreasing dates, a prefix holds the newest elements. */
  lemma NewestPrefix(mine: seq<Entry>, sorted: seq<Entry>, n: nat)
    requires multiset(sorted) == multiset(mine)
    requires forall i, j :: 0 <= i < j < |sorted| ==> sorted[i].date > sorted[j].date
    requires n <= |sorted|
    ensures forall e :: e in sorted[..n] ==> e in mine
    ensures forall e :: e in mine && e !in sorted[..n] ==> n < |sorted| && forall x :: x in sorted[..n] ==> x.date > e.date
  {
    forall e | e in sorted[..n] ensures e in mine {
      assert e in multiset(sorted);
    }
    forall e, x | e in mine && e !in sorted[..n] && x in sorted[..n]
      ensures x.date > e.date
    {
      assert e in multiset(sorted);
      var k :| 0 <= k < |sorted| && sorted[k] == e;
      var i :| 0 <= i < n && sorted[..n][i] == x;
    }
    forall e | e in mine && e !in sorted[..n] ensures n < |sorted| {
      assert e in multiset(sorted);
    }
  }

  /**
   * `getMyEntries`: only the caller's entries, inside [startDate, endDate]
   * when both are given, newest first, at most the limit of them; any matching
   * entry left out is older than every one returned, and is left out only
   * because the limit was reached.
   */
  function MyEntries(entries: seq<Entry>, caller: UserId, startDate: Option<int>, endDate: Option<int>,
                     limit: Option<int>): (r: seq<Entry>)
    requires KeysUnique(entries)
    ensures forall e :: e in r ==> e in entries && MyEntry(e, caller, startDate, endDate)
    ensures forall i, j :: 0 <= i < j < |r| ==> r[i].date > r[j].date
    ensures EffectiveLimit(limit).Some? ==> |r| <= EffectiveLimit(limit).value
    ensures limit.None? ==> |r| <= 100
    ensures limit.Some? && limit.value != 0 ==> |r| <= if limit.value < 0 then -limit.value else limit.value
    ensures forall e :: e in entries && MyEntry(e, caller, startDate, endDate) && e !in r ==>
              && EffectiveLimit(limit).Some? && |r| == EffectiveLimit(limit).value
              && forall x :: x in r ==> x.date > e.date
  {
    var mine := Filter(entries, (e: Entry) => MyEntry(e, caller, startDate, endDate));
    assert TotalPreorder(NotOlder);
    var sorted := Sort(mine, NotOlder);
    KeysUniqueNoDuplicates(entries);
    FilterNoDuplicates(entries, (e: Entry) => MyEntry(e, caller, startDate, endDate));
    OneUserStrictlyNewestFirst(entries, caller, mine, sorted);
    var n := EffectiveLimit(limit);
    var count := if n.Some? && n.value < |sorted| then n.value else |sorted|;
    NewestPrefix(mine, sorted, count);
    sorted[..count]
  }

  /* ------------------------------------------------------- getDevoteesEntries */

  /** `User.find({ mentorId })`: the mentor's devotees, active or not. */
  function DevoteeIds(users: seq<User>, mentor: UserId): set<UserId> {
    set u | u in users && u.mentorId == Some(mentor) :: u.id
  }

  predicate ListedFor(e: Entry, devotees: set<UserId>, day: Option<int>) {
    e.userId in devotees && (day.Some? ==> e.date == StartOfDay(day.value))
  }

  /** `sort({ date: -1, totalScore: -1 })` */
  predicate NewestHighestFirst(a: Entry, b: Entry) {
    a.date > b.date || (a.date == b.date && a.totalScore >= b.totalScore)
  }

  /**
   * `getDevoteesEntries`: every stored entry of a user whose mentor is the
   * caller, restricted to one day when a date is given (each such entry once),
   * ordered by date and then score, both descending.
   */
  function DevoteesEntries(users: seq<User>, entries: seq<Entry>, mentor: UserId, date: Option<int>): (r: seq<Entry>)
    ensures forall e :: multiset(r)[e] == if ListedFor(e, DevoteeIds(users, mentor), date) then multiset(entries)[e] else 0
    ensures forall i, j :: 0 <= i < j < |r| ==> NewestHighestFirst(r[i], r[j])
  {
    var devotees := DevoteeIds(users, mentor);
    var listed := Filter(entries, (e: Entry) => ListedFor(e, devotees, date));
    assert TotalPreorder(NewestHighestFirst);
    forall e ensures multiset(listed)[e] == if ListedFor(e, devotees, date) then multiset(entries)[e] else 0 {
      FilterMultiset(entries, (e: Entry) => ListedFor(e, devotees, date), e);
    }
    Sort(listed, NewestHighestFirst)
  }

  /** Every entry the mentor sees belongs to one of the mentor's devotees. */
  lemma DevoteesEntriesOwned(users: seq<User>, entries: seq<Entry>, mentor: UserId, date: Option<int>, e: Entry)
    requires e in DevoteesEntries(users, entries, mentor, date)
    ensures e in entries
    ensures exists u :: u in users && u.id == e.userId && u.mentorId == Some(mentor)
  {
    var r := DevoteesEntries(users, entries, mentor, date);
    assert multiset(r)[e] > 0;
  }

  /* ---------------------------------------------------------- getWeeklyWinner */

  /** One row of the ranking: a devotee, the sum of their scores, their entries. */
  datatype Ranking = Ranking(user: UserId, totalScore: real, entries: seq<Entry>)

  datatype WeeklyReport = WeeklyReport(weekStart: int, weekEnd: int, rankings: seq<Ranking>, winner: Option<Ranking>)

  predicate InWeek(e: Entry, devotees: set<UserId>, weekStart: int, weekEnd: int) {
    e.userId in devotees && weekStart <= e.date <= weekEnd
  }

  /** The entries the ranking reads: the mentor's devotees' entries dated inside the week, in store order. */
  function WeekEntries(users: seq<User>, entries: seq<Entry>, mentor: UserId, weekStart: int, weekEnd: int): (r: seq<Entry>)
    ensures forall e :: e in r <==> e in entries && InWeek(e, DevoteeIds(users, mentor), weekStart, weekEnd)
  {
    var devotees := DevoteeIds(users, mentor);
    Filter(entries, (e: Entry) => InWeek(e, devotees, weekStart, weekEnd))
  }

  /** The entries of `user` in `es`, in order. */
  function EntriesOf(es: seq<Entry>, user: UserId): seq<Entry>
    decreases |es|
  {
    if es == [] then []
    else
      var last := es[|es| - 1];
      EntriesOf(es[..|es| - 1], user) + (if last.userId == user then [last] else [])
  }

  /** `EntriesOf` keeps exactly the user's entries. */
  lemma {:induction false} EntriesOfMembers(es: seq<Entry>, user: UserId)
    ensures forall e :: e in EntriesOf(es, user) <==> e in es && e.userId == user
    decreases |es|
  {
    if es != [] {
      var last := es[|es| - 1];
      EntriesOfMembers(es[..|es| - 1], user);
      assert es == es[..|es| - 1] + [last];
    }
  }

  lemma EntriesOfSnoc(es: seq<Entry>, e: Entry, user: UserId)
    ensures EntriesOf(es + [e], user) == EntriesOf(es, user) + (if e.userId == user then [e] else [])
  {
    assert (es + [e])[..|es|] == es;
  }

  /** The sum of the entries' scores. */
  function SumScores(es: seq<Entry>): real
    decreases |es|
  {
    if es == [] then 0.0 else SumScores(es[..|es| - 1]) + es[|es| - 1].totalScore
  }

  lemma SumScoresSnoc(es: seq<Entry>, e: Entry)
    ensures SumScores(es + [e]) == SumScores(es) + e.totalScore
  {
    assert (es + [e])[..|es|] == es;
  }

  /** The ranking's sort: by total score, descending. */
  predicate ScoresAtLeast(a: Ranking, b: Ranking) {
    a.totalScore >= b.totalScore
  }

  /** A row is correct for the entries `es` when it lists exactly that devotee's entries and sums their scores. */
  predicate RowFor(row: Ranking, es: seq<Entry>) {
    row.entries == EntriesOf(es, row.user) && row.totalScore == SumScores(row.entries)
  }

  /** What the accumulation loop keeps after reading `seen`: one correct row per user seen, listed once in `order`. */
  ghost predicate Accumulated(t: Tally, seen: seq<Entry>) {
    && NoDuplicates(t.order)
    && (forall u :: u in t.scores <==> u in t.order)
    && (forall u :: u in t.scores <==> EntriesOf(seen, u) != [])
    && (forall u :: u in t.scores ==> t.scores[u].user == u && RowFor(t.scores[u], seen))
  }

  lemma AccumulatedEmpty(seen: seq<Entry>)
    requires seen == []
    ensures Accumulated(Tally(map[], []), seen)
  {
  }

  /** The row `entry` is added to: its user's row, or a fresh empty one. */
  function RowToExtend(scoreMap: map<UserId, Ranking>, entry: Entry): Ranking {
    if entry.userId in scoreMap then scoreMap[entry.userId] else Ranking(entry.userId, 0.0, [])
  }

  function Extended(row: Ranking, entry: Entry): Ranking {
    row.(totalScore := row.totalScore + entry.totalScore, entries := row.entries + [entry])
  }

  /** Adding one entry to its user's row (creating the row on first sight) keeps the accumulation correct. */
  lemma AccumulateStep(t: Tally, seen: seq<Entry>, entry: Entry, seen': seq<Entry>)
    requires Accumulated(t, seen) && seen' == seen + [entry]
    ensures Accumulated(TallyStep(t, entry), seen')
  {
    StepOrder(t.scores, t.order, entry.userId, Extended(RowToExtend(t.scores, entry), entry));
    StepKeys(t.scores, seen, entry);
    StepRows(t.scores, seen, entry);
  }

  lemma StepOrder(scoreMap: map<UserId, Ranking>, order: seq<UserId>, u: UserId, row: Ranking)
    requires NoDuplicates(order) && forall v :: v in scoreMap <==> v in order
    ensures var order' := if u in scoreMap then order else order + [u];
            NoDuplicates(order') && forall v :: v in scoreMap[u := row] <==> v in order'
  {
  }

  lemma StepKeys(scoreMap: map<UserId, Ranking>, seen: seq<Entry>, entry: Entry)
    requires forall u :: u in scoreMap <==> EntriesOf(seen, u) != []
    ensures forall u :: u in scoreMap[entry.userId := Extended(RowToExtend(scoreMap, entry), entry)] <==>
              EntriesOf(seen + [entry], u) != []
  {
    forall v ensures EntriesOf(seen + [entry], v) == EntriesOf(seen, v) + (if entry.userId == v then [entry] else []) {
      EntriesOfSnoc(seen, entry, v);
    }
  }

  lemma StepRows(scoreMap: map<UserId, Ranking>, seen: seq<Entry>, entry: Entry)
    requires forall u :: u in scoreMap <==> EntriesOf(seen, u) != []
    requires forall u :: u in scoreMap ==> scoreMap[u].user == u && RowFor(scoreMap[u], seen)
    ensures var scoreMap' := scoreMap[entry.userId := Extended(RowToExtend(scoreMap, entry), entry)];
            forall u :: u in scoreMap' ==> scoreMap'[u].user == u && RowFor(scoreMap'[u], seen + [entry])
  {
    var row := RowToExtend(scoreMap, entry);
    SumScoresSnoc(row.entries, entry);
    forall v ensures EntriesOf(seen + [entry], v) == EntriesOf(seen, v) + (if entry.userId == v then [entry] else []) {
      EntriesOfSnoc(seen, entry, v);
    }
  }

  /** The rows of the finished map, sorted by score, satisfy the ranking's postcondition. */
  lemma RankingsCorrect(week: seq<Entry>, scoreMap: map<UserId, Ranking>, order: seq<UserId>,
                        values: seq<Ranking>, rankings: seq<Ranking>)
    requires Accumulated(Tally(scoreMap, order), week)
    requires |values| == |order| && forall k :: 0 <= k < |order| ==> values[k] == scoreMap[order[k]]
    requires multiset(rankings) == multiset(values)
    ensures forall k :: 0 <= k < |rankings| ==> RowFor(rankings[k], week) && rankings[k].entries != []
    ensures forall e :: e in week ==> exists k :: 0 <= k < |rankings| && rankings[k].user == e.userId
    ensures forall i, j :: 0 <= i < j < |rankings| ==> rankings[i].user != rankings[j].user
  {
    forall k | 0 <= k < |rankings| ensures RowFor(rankings[k], week) && rankings[k].entries != [] {
      assert rankings[k] in multiset(values);
      var j :| 0 <= j < |values| && values[j] == rankings[k];
      assert order[j] in scoreMap;
    }
    assert NoDuplicates(values) by {
      forall a, b | 0 <= a < b < |values| ensures values[a] != values[b] {
        assert values[a].user == order[a] && values[b].user == order[b];
      }
    }
    NoDuplicatesPermutation(values, rankings);
    forall i, j | 0 <= i < j < |rankings| ensures rankings[i].user != rankings[j].user {
      assert rankings[i] in rankings && rankings[j] in rankings;
    }
    forall e | e in week
      ensures exists k :: 0 <= k < |rankings| && rankings[k].user == e.userId
    {
      EntriesOfMembers(week, e.userId);
      var j :| 0 <= j < |order| && order[j] == e.userId;
      assert values[j] in multiset(rankings);
      var k :| 0 <= k < |rankings| && rankings[k] == values[j];
    }
  }

  /** The tally after some entries: the rows by devotee, and the devotees in order of first appearance. */
  datatype Tally = Tally(scores: map<UserId, Ranking>, order: seq<UserId>)

  /** One step of the tally: add `entry` to its devotee's row, creating the row on first sight. */
  function TallyStep(t: Tally, entry: Entry): Tally {
    Tally(t.scores[entry.userId := Extended(RowToExtend(t.scores, entry), entry)],
          if entry.userId in t.scores then t.order else t.order + [entry.userId])
  }

  function TallyOf(seen: seq<Entry>): Tally
    decreases |seen|
  {
    if seen == [] then Tally(map[], [])
    else TallyStep(TallyOf(seen[..|seen| - 1]), seen[|seen| - 1])
  }

  /** The tally of any entries has one correct row per devotee seen, each listed once. */
  lemma {:induction false} TallyOfAccumulated(seen: seq<Entry>)
    ensures Accumulated(TallyOf(seen), seen)
    decreases |seen|
  {
    if seen == [] {
      AccumulatedEmpty(seen);
    } else {
      var prefix, last := seen[..|seen| - 1], seen[|seen| - 1];
      assert prefix + [last] == seen;
      TallyOfAccumulated(prefix);
      AccumulateStep(TallyOf(prefix), prefix, last, seen);
    }
  }

  /**
   * The `forEach` of `getWeeklyWinner`: a row per devotee, created on the
   * devotee's first entry and extended by each of their entries in turn.
   */
  method TallyScores(week: seq<Entry>) returns (scoreMap: map<UserId, Ranking>, order: seq<UserId>)
    ensures Tally(scoreMap, order) == TallyOf(week)
  {
    scoreMap := map[];
    order := [];
    var i := 0;
    while i < |week|
      invariant 0 <= i <= |week|
      invariant Tally(scoreMap, order) == TallyOf(week[..i])
    {
      var entry := week[i];
      var userId := entry.userId;
      var row := if userId in scoreMap then scoreMap[userId] else Ranking(userId, 0.0, []);
      if userId !in scoreMap {
        order := order + [userId];
      }
      scoreMap := scoreMap[userId := row.(totalScore := row.totalScore + entry.totalScore, entries := row.entries + [entry])];
      assert week[..i + 1][..i] == week[..i];
      i := i + 1;
    }
    assert week[..i] == week;
  }

  /**
   * `getWeeklyWinner`: one row per devotee of the mentor with an entry dated
   * in [weekStart, weekEnd], none for anyone else; each row lists exactly that
   * devotee's entries of the week and their summed score; rows in
   * non-increasing score order; the winner is the first row, or none.
   */
  method GetWeeklyWinner(users: seq<User>, entries: seq<Entry>, mentor: UserId, weekStart: int, weekEnd: int)
    returns (report: WeeklyReport)
    ensures report.weekStart == weekStart && report.weekEnd == weekEnd
    ensures var week := WeekEntries(users, entries, mentor, weekStart, weekEnd);
            && (forall k :: 0 <= k < |report.rankings| ==> RowFor(report.rankings[k], week))
            && (forall k :: 0 <= k < |report.rankings| ==> report.rankings[k].entries != [])
            && (forall e :: e in week ==> exists k :: 0 <= k < |report.rankings| && report.rankings[k].user == e.userId)
    ensures forall i, j :: 0 <= i < j < |report.rankings| ==> report.rankings[i].user != report.rankings[j].user
    ensures forall i, j :: 0 <= i < j < |report.rankings| ==>
              report.rankings[i].totalScore >= report.rankings[j].totalScore
    ensures report.winner == if report.rankings == [] then None else Some(report.rankings[0])
  {
    var week := WeekEntries(users, entries, mentor, weekStart, weekEnd);
    var scoreMap, order := TallyScores(week);
    TallyOfAccumulated(week);
    var values := seq(|order|, k requires 0 <= k < |order| => scoreMap[order[k]]);
    assert TotalPreorder(ScoresAtLeast);
    var rankings := Sort(values, ScoresAtLeast);
    RankingsCorrect(week, scoreMap, order, values, rankings);
    report := WeeklyReport(weekStart, weekEnd, rankings, if rankings == [] then None else Some(rankings[0]));
  }

  /**
   * Unlike missing-submission detection, the ranking does not look at
   * `isActive`: an inactive devotee's entries of the week are ranked too.
   */
  lemma WeekIncludesInactiveDevotees(users: seq<User>, entries: seq<Entry>, mentor: UserId,
                                     weekStart: int, weekEnd: int, u: User, e: Entry)
    requires u in users && u.mentorId == Some(mentor) && !u.isActive
    requires e in entries && e.userId == u.id && weekStart <= e.date <= weekEnd
    ensures e in WeekEntries(users, entries, mentor, weekStart, weekEnd)
  {
  }

  /* ---------------------------------------------------- getMissingSubmissions */

  /** What the response says of a devotee. */
  datatype DevoteeSummary = DevoteeSummary(id: UserId, name: string, email: string, phone: string)

  datatype MissingReport = MissingReport(date: int, missingDevotees: seq<DevoteeSummary>, total: nat)

  function Summary(u: User): DevoteeSummary {
    DevoteeSummary(u.id, u.name, u.email, u.phone)
  }

  predicate ActiveDevoteeOf(u: User, mentor: UserId) {
    u.mentorId == Some(mentor) && u.isActive
  }

  /** Some entry of `user` is dated `day`. */
  predicate SubmittedOn(entries: seq<Entry>, user: UserId, day: int) {
    exists e :: e in entries && e.userId == user && e.date == day
  }

  /** The ids of the users who own the given entries, one per entry (`entries.map(e => e.userId)`). */
  function OwnerIds(es: seq<Entry>): (r: seq<UserId>)
    ensures |r| == |es| && forall k :: 0 <= k < |es| ==> r[k] == es[k].userId
  {
    seq(|es|, k requires 0 <= k < |es| => es[k].userId)
  }

  function Summaries(us: seq<User>): (r: seq<DevoteeSummary>)
    ensures |r| == |us| && forall k :: 0 <= k < |us| ==> r[k] == Summary(us[k])
  {
    seq(|us|, k requires 0 <= k < |us| => Summary(us[k]))
  }

  /** The summaries are exactly those of the listed users. */
  lemma SummariesMembers(us: seq<User>)
    ensures forall u :: u in us ==> Summary(u) in Summaries(us)
    ensures forall s :: s in Summaries(us) ==> exists u :: u in us && s == Summary(u)
  {
    var r := Summaries(us);
    forall u | u in us ensures Summary(u) in r {
      var k :| 0 <= k < |us| && us[k] == u;
      assert r[k] == Summary(u);
    }
    forall s | s in r ensures exists u :: u in us && s == Summary(u) {
      var k :| 0 <= k < |r| && r[k] == s;
      assert us[k] in us;
    }
  }

  /**
   * `getMissingSubmissions`: the caller's active devotees (in the order the
   * users are listed) with no entry on the target day, which is the start of
   * the given date or of today; `total` is their number.
   */
  function MissingSubmissions(users: seq<User>, entries: seq<Entry>, mentor: UserId, date: Option<int>, now: int)
    : (r: MissingReport)
    ensures r.date == StartOfDay(date.GetOr(now))
    ensures r.total == |r.missingDevotees| <= |users|
    ensures forall u :: u in users && ActiveDevoteeOf(u, mentor) && !SubmittedOn(entries, u.id, r.date) ==>
              Summary(u) in r.missingDevotees
    ensures forall s :: s in r.missingDevotees ==>
              exists u :: u in users && s == Summary(u) && ActiveDevoteeOf(u, mentor) && !SubmittedOn(entries, u.id, r.date)
  {
    var targetDate := if date.Some? then StartOfDay(date.value) else StartOfDay(now);
    var devotees := Filter(users, (u: User) => ActiveDevoteeOf(u, mentor));
    var devoteeIds := set d | d in devotees :: d.id;
    var dayEntries := Filter(entries, (e: Entry) => e.userId in devoteeIds && e.date == targetDate);
    var submittedIds := OwnerIds(dayEntries);
    var missing := Filter(devotees, (d: User) => d.id !in submittedIds);
    MissingMeaning(users, entries, mentor, targetDate, devotees, dayEntries, submittedIds, missing);
    var summaries := Summaries(missing);
    SummariesMembers(missing);
    MissingReport(targetDate, summaries, |summaries|)
  }

  lemma MissingMeaning(users: seq<User>, entries: seq<Entry>, mentor: UserId, targetDate: int,
                       devotees: seq<User>, dayEntries: seq<Entry>, submittedIds: seq<UserId>, missing: seq<User>)
    requires forall u :: u in devotees <==> u in users && ActiveDevoteeOf(u, mentor)
    requires forall e :: e in dayEntries <==> e in entries && e.userId in (set d | d in devotees :: d.id) && e.date == targetDate
    requires |submittedIds| == |dayEntries| && forall k :: 0 <= k < |dayEntries| ==> submittedIds[k] == dayEntries[k].userId
    requires forall u :: u in missing <==> u in devotees && u.id !in submittedIds
    ensures forall u :: u in missing <==> u in users && ActiveDevoteeOf(u, mentor) && !SubmittedOn(entries, u.id, targetDate)
  {
    forall u | u in devotees ensures u.id in submittedIds <==> SubmittedOn(entries, u.id, targetDate) {
      if u.id in submittedIds {
        var k :| 0 <= k < |submittedIds| && submittedIds[k] == u.id;
        assert dayEntries[k] in dayEntries;
      }
      if SubmittedOn(entries, u.id, targetDate) {
        var e :| e in entries && e.userId == u.id && e.date == targetDate;
        assert u.id in (set d | d in devotees :: d.id);
        var k :| 0 <= k < |dayEntries| && dayEntries[k] == e;
        assert submittedIds[k] == u.id;
      }
    }
  }
}

=== FILE: src/sadhna_entry_page.dfy ===
/**
 * The daily entry form: its field state, which fields have been touched, the
 * per-field errors shown for touched fields, the validity test, and the
 * submit handler's guard and payload. `parseInt`, `parseFloat` and the API
 * call are functions the page is given.
 */
module SadhnaEntryPage {
  import opened Wrappers
  import opened Validators

  /** The form's text fields (the date has its own picker). */
  datatype Field =
    | WakeUpTime | SleepTime | RoundsChanted | BookName
    | ReadingDuration | ServiceDuration | ServiceType | HearingDuration

  /** The six fields the form validates. */
  const ValidatedFields: set<Field> :=
    {WakeUpTime, SleepTime, RoundsChanted, ReadingDuration, ServiceDuration, HearingDuration}

  /** `formData`; `date` is the picked day as an instant. */
  datatype EntryForm = EntryForm(
    date: int,
    wakeUpTime: string,
    sleepTime: string,
    roundsChanted: string,
    bookName: string,
    readingDuration: string,
    serviceDuration: string,
    serviceType: string,
    hearingDuration: string)

  /** The form as the page first shows it: today, the book "Sb", every other field empty. */
  function InitialForm(today: int): (f: EntryForm)
    ensures f.date == today && f.bookName == "Sb"
    ensures forall field :: field != BookName ==> Value(f, field) == ""
  {
    EntryForm(today, "", "", "", "Sb", "", "", "", "")
  }

  function Value(f: EntryForm, field: Field): string {
    match field
    case WakeUpTime => f.wakeUpTime
    case SleepTime => f.sleepTime
    case RoundsChanted => f.roundsChanted
    case BookName => f.bookName
    case ReadingDuration => f.readingDuration
    case ServiceDuration => f.serviceDuration
    case ServiceType => f.serviceType
    case HearingDuration => f.hearingDuration
  }

  /** `{ ...formData, [name]: value }` */
  function WithValue(f: EntryForm, field: Field, value: string): (g: EntryForm)
    ensures Value(g, field) == value
    ensures forall other :: other != field ==> Value(g, other) == Value(f, other)
    ensures g.date == f.date
  {
    match field
    case WakeUpTime => f.(wakeUpTime := value)
    case SleepTime => f.(sleepTime := value)
    case RoundsChanted => f.(roundsChanted := value)
    case BookName => f.(bookName := value)
    case ReadingDuration => f.(readingDuration := value)
    case ServiceDuration => f.(serviceDuration := value)
    case ServiceType => f.(serviceType := value)
    case HearingDuration => f.(hearingDuration := value)
  }

  /** The upper bound each number field is checked against. */
  function UpperBound(field: Field): int {
    match field
    case RoundsChanted => 64
    case ReadingDuration => 600
    case _ => 24
  }

  /** The label a number field's messages use. */
  function Label(field: Field): string {
    match field
    case RoundsChanted => "Rounds"
    case ReadingDuration => "Reading duration"
    case ServiceDuration => "Service duration"
    case _ => "Hearing duration"
  }

  /** The validator run on a validated field, with the field's label. */
  function Check(f: EntryForm, field: Field, parseFloat: string -> Option<real>): (r: Validation)
    requires field in ValidatedFields
    ensures r.isValid <==> r.error == ""
  {
    if field == WakeUpTime || field == SleepTime then Time(Value(f, field))
    else Number(Str(Value(f, field)), 0, Some(UpperBound(field)), Label(field), parseFloat)
  }

  /**
   * `isFormValid`: both times match the time format, and rounds lie in
   * [0, 64], reading in [0, 600], service and hearing in [0, 24].
   */
  predicate IsFormValid(f: EntryForm, parseFloat: string -> Option<real>) {
    && Time(f.wakeUpTime).isValid
    && Time(f.sleepTime).isValid
    && Number(Str(f.roundsChanted), 0, Some(64), "Value", parseFloat).isValid
    && Number(Str(f.readingDuration), 0, Some(600), "Value", parseFloat).isValid
    && Number(Str(f.serviceDuration), 0, Some(24), "Value", parseFloat).isValid
    && Number(Str(f.hearingDuration), 0, Some(24), "Value", parseFloat).isValid
  }

  /** A valid form's numbers parse and lie inside their ranges. */
  lemma ValidFormInRange(f: EntryForm, parseFloat: string -> Option<real>)
    requires IsFormValid(f, parseFloat)
    ensures MatchesTimeRegexBoth(f)
    ensures var r := parseFloat(f.roundsChanted); r.Some? && 0.0 <= r.value <= 64.0
    ensures var r := parseFloat(f.readingDuration); r.Some? && 0.0 <= r.value <= 600.0
    ensures var r := parseFloat(f.serviceDuration); r.Some? && 0.0 <= r.value <= 24.0
    ensures var r := parseFloat(f.hearingDuration); r.Some? && 0.0 <= r.value <= 24.0
  {
  }

  ghost predicate MatchesTimeRegexBoth(f: EntryForm) {
    TimeFormat.MatchesTimeRegex(f.wakeUpTime) && TimeFormat.MatchesTimeRegex(f.sleepTime)
  }

  /**
   * The effect computing `fieldErrors`: an entry for each touched validated
   * field, holding its validator's message ("" when it passes), and none for
   * untouched fields.
   */
  function FieldErrors(f: EntryForm, touched: set<Field>, parseFloat: string -> Option<real>)
    : (errors: map<Field, string>)
    ensures errors.Keys == touched * ValidatedFields
    ensures forall field :: field in errors ==> errors[field] == Check(f, field, parseFloat).error
  {
    map field | field in touched * ValidatedFields :: Check(f, field, parseFloat).error
  }

  /**
   * Once every validated field is touched, the form is valid exactly when no
   * field shows an error: the messages shown and the submit guard agree.
   */
  lemma AllTouchedErrorsMatchValidity(f: EntryForm, parseFloat: string -> Option<real>)
    ensures var errors := FieldErrors(f, ValidatedFields, parseFloat);
            IsFormValid(f, parseFloat) <==> forall field :: field in errors ==> errors[field] == ""
  {
    var errors := FieldErrors(f, ValidatedFields, parseFloat);
    ChecksMatchValidity(f, parseFloat);
    forall field | field in errors ensures errors[field] == "" <==> Check(f, field, parseFloat).isValid {
      assert errors[field] == Check(f, field, parseFloat).error;
    }
  }

  /** The validators run per field pass together exactly when the submit guard holds; labels do not matter. */
  lemma ChecksMatchValidity(f: EntryForm, parseFloat: string -> Option<real>)
    ensures IsFormValid(f, parseFloat) <==> forall field :: field in ValidatedFields ==> Check(f, field, parseFloat).isValid
  {
    TimeChecksMatch(f, parseFloat);
    NumberChecksMatch(f, parseFloat);
  }

  lemma TimeChecksMatch(f: EntryForm, parseFloat: string -> Option<real>)
    ensures Check(f, WakeUpTime, parseFloat).isValid == Time(f.wakeUpTime).isValid
    ensures Check(f, SleepTime, parseFloat).isValid == Time(f.sleepTime).isValid
  {
  }

  lemma NumberChecksMatch(f: EntryForm, parseFloat: string -> Option<real>)
    ensures Check(f, RoundsChanted, parseFloat).isValid
         == Number(Str(f.roundsChanted), 0, Some(64), "Value", parseFloat).isValid
    ensures Check(f, ReadingDuration, parseFloat).isValid
         == Number(Str(f.readingDuration), 0, Some(600), "Value", parseFloat).isValid
    ensures Check(f, ServiceDuration, parseFloat).isValid
         == Number(Str(f.serviceDuration), 0, Some(24), "Value", parseFloat).isValid
    ensures Check(f, HearingDuration, parseFloat).isValid
         == Number(Str(f.hearingDuration), 0, Some(24), "Value", parseFloat).isValid
  {
  }

  /** The body sent to the server; a number that does not parse is NaN, here None. */
  datatype Payload = Payload(
    date: int,
    wakeUpTime: string,
    sleepTime: string,
    roundsChanted: Option<int>,
    bookName: string,
    readingDuration: Option<real>,
    serviceDuration: Option<real>,
    serviceType: string,
    hearingDuration: Option<real>)

  /** `dataToSubmit`: rounds through `parseInt`, the three durations through `parseFloat`, the rest as entered. */
  function PayloadOf(f: EntryForm, parseInt: string -> Option<int>, parseFloat: string -> Option<real>)
    : (p: Payload)
    ensures p.date == f.date && p.wakeUpTime == f.wakeUpTime && p.sleepTime == f.sleepTime
    ensures p.bookName == f.bookName && p.serviceType == f.serviceType
    ensures p.roundsChanted == parseInt(f.roundsChanted)
    ensures p.readingDuration == parseFloat(f.readingDuration)
    ensures p.serviceDuration == parseFloat(f.serviceDuration)
    ensures p.hearingDuration == parseFloat(f.hearingDuration)
  {
    Payload(f.date, f.wakeUpTime, f.sleepTime, parseInt(f.roundsChanted), f.bookName,
            parseFloat(f.readingDuration), parseFloat(f.serviceDuration), f.serviceType,
            parseFloat(f.hearingDuration))
  }

  /** The payload of a valid form carries durations inside the form's ranges. */
  lemma ValidFormPayload(f: EntryForm, parseInt: string -> Option<int>, parseFloat: string -> Option<real>)
    requires IsFormValid(f, parseFloat)
    ensures var p := PayloadOf(f, parseInt, parseFloat);
            && p.readingDuration.Some? && 0.0 <= p.readingDuration.value <= 600.0
            && p.serviceDuration.Some? && 0.0 <= p.serviceDuration.value <= 24.0
            && p.hearingDuration.Some? && 0.0 <= p.hearingDuration.value <= 24.0
  {
    ValidFormInRange(f, parseFloat);
  }

  /** What `createOrUpdate` resolves to: success, or a failure with the server's message if it sent one. */
  datatype ApiResult = Saved | SaveFailed(message: Option<string>)

  /** `error.response?.data?.message || 'Failed to save entry'` */
  function FailureText(message: Option<string>): (t: string)
    ensures t != ""
    ensures message.Some? && message.value != "" ==> t == message.value
    ensures message.None? || message.value == "" ==> t == SaveFailedFallback
  {
    if message.Some? && message.value != "" then message.value else SaveFailedFallback
  }

  const InvalidFormError: string := "Please fix the errors above"
  const SavedMessage: string := "Sadhna entry saved successfully! \U{1F389}"
  const SaveFailedFallback: string := "Failed to save entry"

  /** The page's state. `fieldErrors` is not stored: the page derives it from this state, as `FieldErrors`. */
  class SadhnaEntryForm {
    var form: EntryForm
    var touched: set<Field>
    var error: string
    var success: string
    var loading: bool
    const parseInt: string -> Option<int>
    const parseFloat: string -> Option<real>

    constructor (today: int, parseInt: string -> Option<int>, parseFloat: string -> Option<real>)
      ensures form == InitialForm(today) && touched == {}
      ensures error == "" && success == "" && !loading
      ensures this.parseInt == parseInt && this.parseFloat == parseFloat
    {
      form := InitialForm(today);
      touched := {};
      error := "";
      success := "";
      loading := false;
      this.parseInt := parseInt;
      this.parseFloat := parseFloat;
    }

    /** `handleChange`: the field takes the value, and both messages are cleared. */
    method HandleChange(field: Field, value: string)
      modifies this
      ensures form == WithValue(old(form), field, value)
      ensures error == "" && success == ""
      ensures touched == old(touched) && loading == old(loading)
    {
      form := WithValue(form, field, value);
      error := "";
      success := "";
    }

    /** `handleDateChange` */
    method HandleDateChange(date: int)
      modifies this
      ensures form == old(form).(date := date)
      ensures touched == old(touched) && error == old(error) && success == old(success) && loading == old(loading)
    {
      form := form.(date := date);
    }

    /** `handleBlur`: the field counts as touched from now on. */
    method HandleBlur(field: Field)
      modifies this
      ensures touched == old(touched) + {field}
      ensures form == old(form) && error == old(error) && success == old(success) && loading == old(loading)
    {
      touched := touched + {field};
    }

    /**
     * `handleSubmit`: every validated field becomes touched; an invalid form
     * gets "Please fix the errors above" and no request; a valid one sends its
     * payload once and shows the success message or the server's error.
     */
    method HandleSubmit(createOrUpdate: Payload -> ApiResult) returns (sent: Option<Payload>)
      modifies this
      ensures touched == ValidatedFields
      ensures form == old(form)
      ensures sent.None? ==> loading == old(loading)
      ensures sent.Some? ==> !loading
      ensures sent.Some? <==> IsFormValid(form, parseFloat)
      ensures sent.None? ==> error == InvalidFormError && success == ""
      ensures sent.Some? ==> sent.value == PayloadOf(form, parseInt, parseFloat)
      ensures sent.Some? && createOrUpdate(sent.value) == Saved ==> success == SavedMessage && error == ""
      ensures sent.Some? && createOrUpdate(sent.value).SaveFailed? ==>
                success == "" &&
                error == FailureText(createOrUpdate(sent.value).message) && error != ""
    {
      error := "";
      success := "";
      touched := ValidatedFields;
      if !IsFormValid(form, parseFloat) {
        error := InvalidFormError;
        return None;
      }
      loading := true;
      var dataToSubmit := PayloadOf(form, parseInt, parseFloat);
      var result := createOrUpdate(dataToSubmit);
      if result == Saved {
        success := SavedMessage;
      } else {
        error := FailureText(result.message);
      }
      loading := false;
      sent := Some(dataToSubmit);
    }
  }
}

=== FILE: src/seqs.dfy ===
/** The `Array.prototype.filter` pipelines of the source, and facts about them. */
module Seqs {

  /** `s.filter(p)`: the elements of `s` satisfying `p`, in their order in `s`. */
  function Filter<T(==,!new)>(s: seq<T>, p: T -> bool): (r: seq<T>)
    ensures |r| <= |s|
    ensures forall x :: x in r <==> x in s && p(x)
    ensures forall k :: 0 <= k < |r| ==> p(r[k])
    decreases |s|
  {
    if s == [] then []
    else (if p(s[0]) then [s[0]] else []) + Filter(s[1..], p)
  }

  /** Every position moved one place on. */
  function Shift(ns: seq<nat>): (r: seq<nat>)
    ensures |r| == |ns| && forall k :: 0 <= k < |ns| ==> r[k] == ns[k] + 1
  {
    seq(|ns|, k requires 0 <= k < |ns| => ns[k] + 1)
  }

  /** The positions in `s` of the elements `Filter(s, p)` keeps. */
  function FilterIndices<T>(s: seq<T>, p: T -> bool): seq<nat>
    decreases |s|
  {
    if s == [] then [] else (if p(s[0]) then [0] else []) + Shift(FilterIndices(s[1..], p))
  }

  /**
   * `Filter` keeps the order of `s`: its elements sit at strictly increasing
   * positions of `s`, and every position left out holds an element failing `p`.
   */
  lemma FilterIndicesCorrect<T(!new)>(s: seq<T>, p: T -> bool)
    ensures var idx := FilterIndices(s, p);
            && |idx| == |Filter(s, p)|
            && (forall k :: 0 <= k < |idx| ==> idx[k] < |s| && Filter(s, p)[k] == s[idx[k]])
            && (forall k, l :: 0 <= k < l < |idx| ==> idx[k] < idx[l])
            && (forall i :: 0 <= i < |s| && i !in idx ==> !p(s[i]))
  {
    FilterIndicesAt(s, p);
    FilterIndicesIncreasing(s, p);
    FilterIndicesSkipped(s, p);
  }

  /** `r[k]` is the element of `s` at position `idx[k]`. */
  ghost predicate TakenAt<T>(r: seq<T>, s: seq<T>, idx: seq<nat>) {
    |idx| == |r| && forall k :: 0 <= k < |idx| ==> idx[k] < |s| && r[k] == s[idx[k]]
  }

  lemma {:induction false} FilterIndicesAt<T(!new)>(s: seq<T>, p: T -> bool)
    ensures TakenAt(Filter(s, p), s, FilterIndices(s, p))
    decreases |s|
  {
    if s != [] {
      var t := s[1..];
      FilterIndicesAt(t, p);
      var rest, ft := FilterIndices(t, p), Filter(t, p);
      assert TakenAt(ft, t, rest);
      var head, kept := if p(s[0]) then [0] else [], if p(s[0]) then [s[0]] else [];
      var sh := Shift(rest);
      var idx, f := FilterIndices(s, p), Filter(s, p);
      assert idx == head + sh && f == kept + ft;
      var h := |head|;
      assert |kept| == h;
      forall k | 0 <= k < |idx| ensures idx[k] < |s| && f[k] == s[idx[k]] {
        if k >= h {
          assert idx[k] == sh[k - h] == rest[k - h] + 1;
          assert f[k] == ft[k - h] == t[rest[k - h]];
        } else {
          assert idx[k] == 0 && f[k] == s[0];
        }
      }
    }
  }

  predicate StrictlyIncreasing(ns: seq<nat>) {
    forall k, l :: 0 <= k < l < |ns| ==> ns[k] < ns[l]
  }

  lemma {:induction false} FilterIndicesIncreasing<T>(s: seq<T>, p: T -> bool)
    ensures StrictlyIncreasing(FilterIndices(s, p))
    decreases |s|
  {
    if s != [] {
      FilterIndicesIncreasing(s[1..], p);
      var rest := FilterIndices(s[1..], p);
      assert StrictlyIncreasing(rest);
      var head := if p(s[0]) then [0] else [];
      var sh := Shift(rest);
      var idx := FilterIndices(s, p);
      assert idx == head + sh;
      var h := |head|;
      forall k, l | 0 <= k < l < |idx| ensures idx[k] < idx[l] {
        assert idx[l] == sh[l - h] == rest[l - h] + 1;
        if k >= h {
          assert idx[k] == sh[k - h] == rest[k - h] + 1;
          assert rest[k - h] < rest[l - h];
        } else {
          assert idx[k] == head[k] == 0;
        }
      }
    }
  }

  /** Every position of `s` that `idx` leaves out holds an element failing `p`. */
  predicate SkipsOnlyFailing<T>(s: seq<T>, idx: seq<nat>, p: T -> bool) {
    forall i :: 0 <= i < |s| && i !in idx ==> !p(s[i])
  }

  lemma {:induction false} FilterIndicesSkipped<T>(s: seq<T>, p: T -> bool)
    ensures SkipsOnlyFailing(s, FilterIndices(s, p), p)
    decreases |s|
  {
    if s != [] {
      var t := s[1..];
      FilterIndicesSkipped(t, p);
      var rest := FilterIndices(t, p);
      assert SkipsOnlyFailing(t, rest, p);
      var head := if p(s[0]) then [0] else [];
      var sh := Shift(rest);
      var idx := FilterIndices(s, p);
      assert idx == head + sh;
      var h := |head|;
      forall i | 0 <= i < |s| && i !in idx ensures !p(s[i]) {
        if i > 0 {
          assert i - 1 !in rest;
          assert s[i] == t[i - 1];
        }
      }
    }
  }

  /** Filtering distributes over concatenation, so it can be computed a prefix at a time. */
  lemma {:induction false} FilterAppend<T(!new)>(a: seq<T>, b: seq<T>, p: T -> bool)
    ensures Filter(a + b, p) == Filter(a, p) + Filter(b, p)
    decreases |a|
  {
    if a != [] {
      assert (a + b)[1..] == a[1..] + b;
      FilterAppend(a[1..], b, p);
    } else {
      assert a + b == b;
    }
  }

  /** Filtering keeps every occurrence: the multiset of the result is that of the kept elements. */
  lemma {:induction false} FilterMultiset<T(!new)>(s: seq<T>, p: T -> bool, x: T)
    ensures multiset(Filter(s, p))[x] == if p(x) then multiset(s)[x] else 0
    decreases |s|
  {
    if s != [] {
      FilterMultiset(s[1..], p, x);
      assert s == [s[0]] + s[1..];
    }
  }

  /** Filtering by a test every element passes keeps the sequence as it is. */
  lemma {:induction false} FilterKeepsAll<T(!new)>(s: seq<T>, p: T -> bool)
    requires forall k :: 0 <= k < |s| ==> p(s[k])
    ensures Filter(s, p) == s
    decreases |s|
  {
    if s != [] {
      FilterKeepsAll(s[1..], p);
    }
  }

  /**
   * Filtering out the one occurrence of `x` from a sequence without
   * duplicates, and nothing else, shortens it by exactly one.
   */
  lemma FilterDropsOne<T(!new)>(s: seq<T>, p: T -> bool, x: T)
    requires x in s && !p(x)
    requires forall k :: 0 <= k < |s| && s[k] != x ==> p(s[k])
    ensures NoDuplicates(s) ==> |Filter(s, p)| == |s| - 1
  {
    var f := Filter(s, p);
    NoDuplicatesMultiset(s);
    if NoDuplicates(s) {
      forall y ensures multiset(f)[y] == (multiset(s) - multiset{x})[y] {
        FilterMultiset(s, p, y);
        if y != x && y in s {
          var k :| 0 <= k < |s| && s[k] == y;
          assert p(s[k]);
        }
      }
      assert multiset(f) == multiset(s) - multiset{x};
      assert multiset(s) == (multiset(s) - multiset{x}) + multiset{x};
    }
  }

  /** No element occurs twice. */
  predicate NoDuplicates<T(==)>(s: seq<T>) {
    forall i, j :: 0 <= i < j < |s| ==> s[i] != s[j]
  }

  /** A filtered sequence without duplicates has none either. */
  lemma {:induction false} FilterNoDuplicates<T(!new)>(s: seq<T>, p: T -> bool)
    requires NoDuplicates(s)
    ensures NoDuplicates(Filter(s, p))
    decreases |s|
  {
    if s != [] {
      FilterNoDuplicates(s[1..], p);
      assert s[0] !in s[1..];
    }
  }

  /** The number of elements satisfying `p`: `s.filter(p).length`. */
  function Count<T>(s: seq<T>, p: T -> bool): (n: nat)
    ensures n <= |s|
    ensures n == 0 <==> forall k :: 0 <= k < |s| ==> !p(s[k])
    ensures n == |s| <==> forall k :: 0 <= k < |s| ==> p(s[k])
    decreases |s|
  {
    if s == [] then 0 else (if p(s[0]) then 1 else 0) + Count(s[1..], p)
  }

  /** No duplicates means every element occurs at most once. */
  lemma {:induction false} NoDuplicatesMultiset<T>(s: seq<T>)
    ensures NoDuplicates(s) <==> forall x :: multiset(s)[x] <= 1
    decreases |s|
  {
    if s != [] {
      var t := s[1..];
      assert s == [s[0]] + t;
      NoDuplicatesMultiset(t);
      if forall x :: multiset(s)[x] <= 1 {
        assert forall x :: multiset(t)[x] <= multiset(s)[x];
        assert multiset(t)[s[0]] == 0;
        forall i, j | 0 <= i < j < |s| ensures s[i] != s[j] {
          if i == 0 {
            assert s[j] == t[j - 1];
          } else {
            assert s[i] == t[i - 1] && s[j] == t[j - 1];
          }
        }
      }
      if NoDuplicates(s) {
        assert NoDuplicates(t) by {
          forall i, j | 0 <= i < j < |t| ensures t[i] != t[j] {
            assert t[i] == s[i + 1] && t[j] == s[j + 1];
          }
        }
        assert s[0] !in t by {
          forall k | 0 <= k < |t| ensures t[k] != s[0] {
            assert t[k] == s[k + 1];
          }
        }
      }
    }
  }

  /** A rearrangement of a sequence without duplicates has none either. */
  lemma NoDuplicatesPermutation<T>(a: seq<T>, b: seq<T>)
    requires multiset(a) == multiset(b) && NoDuplicates(a)
    ensures NoDuplicates(b)
  {
    NoDuplicatesMultiset(a);
    NoDuplicatesMultiset(b);
  }
}

=== FILE: src/signup_page.dfy ===
/**
 * The signup form: field state, touched fields, the errors shown for touched
 * fields (the mentor field only for devotees), the validity test with its
 * role-dependent mentor requirement, and the submit handler. The
 * registration call is a function the page is given.
 */
module SignupPage {
  import opened Wrappers
  import opened Validators
  import Strings

  datatype Field = Name | Email | Password | Phone | Role | MentorId

  /** The fields submitting marks as touched. */
  const CheckedFields: set<Field> := {Name, Email, Phone, Password, MentorId}

  datatype SignupForm = SignupForm(name: string, email: string, password: string, phone: string,
                                   role: string, mentorId: string)

  /** The form as first shown: everything empty, the role "devotee". */
  const InitialForm: SignupForm := SignupForm("", "", "", "", "devotee", "")

  function Value(f: SignupForm, field: Field): string {
    match field
    case Name => f.name
    case Email => f.email
    case Password => f.password
    case Phone => f.phone
    case Role => f.role
    case MentorId => f.mentorId
  }

  /** `{ ...formData, [name]: value }` */
  function WithValue(f: SignupForm, field: Field, value: string): (g: SignupForm)
    ensures Value(g, field) == value
    ensures forall other :: other != field ==> Value(g, other) == Value(f, other)
  {
    match field
    case Name => f.(name := value)
    case Email => f.(email := value)
    case Password => f.(password := value)
    case Phone => f.(phone := value)
    case Role => f.(role := value)
    case MentorId => f.(mentorId := value)
  }

  /** The mentor requirement: a mentor needs none, anyone else a non-blank mentor. */
  predicate MentorGiven(f: SignupForm) {
    f.role == "mentor" || Required(Str(f.mentorId), "This field").isValid
  }

  /** `isFormValid` */
  predicate IsFormValid(f: SignupForm) {
    && Validators.Name(f.name).isValid
    && Validators.Email(f.email).isValid
    && Validators.Phone(f.phone).isValid
    && Validators.Password(f.password, DefaultMinPasswordLength).isValid
    && MentorGiven(f)
  }

  /** A devotee must pick a mentor; a mentor's form is judged without the mentor field. */
  lemma MentorRequirement(f: SignupForm)
    ensures f.role == "devotee" && Strings.AllWhitespace(f.mentorId) ==> !IsFormValid(f)
    ensures f.role == "mentor" ==> (IsFormValid(f) <==> IsFormValid(f.(mentorId := "")))
  {
  }

  /**
   * The effect computing `fieldErrors`: the four text fields when touched;
   * the mentor field only when touched and the role is "devotee".
   */
  function FieldErrors(f: SignupForm, touched: set<Field>): (errors: map<Field, string>)
    ensures forall field :: field in errors <==>
              field in touched && (field in {Name, Email, Phone, Password} || (field == MentorId && f.role == "devotee"))
    ensures Name in errors ==> errors[Name] == Validators.Name(f.name).error
    ensures Email in errors ==> errors[Email] == Validators.Email(f.email).error
    ensures Phone in errors ==> errors[Phone] == Validators.Phone(f.phone).error
    ensures Password in errors ==> errors[Password] == Validators.Password(f.password, DefaultMinPasswordLength).error
    ensures MentorId in errors ==> errors[MentorId] == Required(Str(f.mentorId), "Mentor").error
  {
    var e1: map<Field, string> := if Name in touched then map[Name := Validators.Name(f.name).error] else map[];
    var e2 := if Email in touched then e1[Email := Validators.Email(f.email).error] else e1;
    var e3 := if Phone in touched then e2[Phone := Validators.Phone(f.phone).error] else e2;
    var e4 := if Password in touched then e3[Password := Validators.Password(f.password, DefaultMinPasswordLength).error] else e3;
    if MentorId in touched && f.role == "devotee" then e4[MentorId := Required(Str(f.mentorId), "Mentor").error] else e4
  }

  /**
   * With every field touched and either role chosen, the form is valid
   * exactly when no field shows an error.
   */
  lemma AllTouchedErrorsMatchValidity(f: SignupForm)
    requires f.role == "devotee" || f.role == "mentor"
    ensures var errors := FieldErrors(f, CheckedFields);
            IsFormValid(f) <==> forall field :: field in errors ==> errors[field] == ""
  {
    var errors := FieldErrors(f, CheckedFields);
    assert Name in errors && Email in errors && Phone in errors && Password in errors;
    if f.role == "devotee" {
      assert MentorId in errors;
    }
  }

  /** What `register` resolves to. */
  datatype RegisterResult = RegisterSucceeded | RegisterFailed(error: string)

  const InvalidFormError: string := "Please fix the errors above"
  const DashboardPath: string := "/dashboard"

  /** The page's state; `navigatedTo` records a call to `navigate`. */
  class SignupPageState {
    var form: SignupForm
    var touched: set<Field>
    var error: string
    var loading: bool
    var navigatedTo: Option<string>

    constructor ()
      ensures form == InitialForm && touched == {} && error == "" && !loading && navigatedTo.None?
    {
      form := InitialForm;
      touched := {};
      error := "";
      loading := false;
      navigatedTo := None;
    }

    /** `handleChange`: the field takes the value and the error is cleared. */
    method HandleChange(field: Field, value: string)
      modifies this
      ensures form == WithValue(old(form), field, value) && error == ""
      ensures touched == old(touched) && loading == old(loading) && navigatedTo == old(navigatedTo)
    {
      form := WithValue(form, field, value);
      error := "";
    }

    /** `handleBlur` */
    method HandleBlur(field: Field)
      modifies this
      ensures touched == old(touched) + {field}
      ensures form == old(form) && error == old(error) && loading == old(loading) && navigatedTo == old(navigatedTo)
    {
      touched := touched + {field};
    }

    /**
     * `handleSubmit`: all five fields become touched; an invalid form gets
     * "Please fix the errors above" and is not sent; a valid one is sent once,
     * and success navigates to the dashboard while failure shows the error.
     */
    method HandleSubmit(register: SignupForm -> RegisterResult) returns (sent: bool)
      modifies this
      ensures touched == CheckedFields && form == old(form)
      ensures sent <==> IsFormValid(form)
      ensures !sent ==> error == InvalidFormError && navigatedTo == old(navigatedTo) && loading == old(loading)
      ensures sent && register(form) == RegisterSucceeded ==> navigatedTo == Some(DashboardPath) && error == ""
      ensures sent && register(form).RegisterFailed? ==>
                error == register(form).error && navigatedTo == old(navigatedTo)
      ensures sent ==> !loading
    {
      error := "";
      touched := CheckedFields;
      if !IsFormValid(form) {
        error := InvalidFormError;
        return false;
      }
      loading := true;
      var result := register(form);
      if result == RegisterSucceeded {
        navigatedTo := Some(DashboardPath);
      } else {
        error := result.error;
      }
      loading := false;
      sent := true;
    }
  }
}

=== FILE: src/sorting.dfy ===
/**
 * Sorting as the source uses it (`Array.prototype.sort` with a comparator and
 * the database's `.sort(...)`): a stable insertion sort by a total preorder
 * `before`, where `before(a, b)` means "`a` may come before `b`".
 */
module Sorting {

  ghost predicate TotalPreorder<T(!new)>(before: (T, T) -> bool) {
    && (forall a, b :: before(a, b) || before(b, a))
    && (forall a, b, c :: before(a, b) && before(b, c) ==> before(a, c))
  }

  predicate SortedBy<T>(s: seq<T>, before: (T, T) -> bool) {
    forall i, j :: 0 <= i < j < |s| ==> before(s[i], s[j])
  }

  /** Inserts `x` into sorted `s` in front of the first element it may precede. */
  function Insert<T(!new)>(x: T, s: seq<T>, before: (T, T) -> bool): (r: seq<T>)
    requires TotalPreorder(before) && SortedBy(s, before)
    ensures SortedBy(r, before)
    ensures multiset(r) == multiset(s) + multiset{x}
    decreases |s|
  {
    if s == [] || before(x, s[0]) then [x] + s
    else
      var rest := Insert(x, s[1..], before);
      assert s == [s[0]] + s[1..];
      assert forall k :: 0 <= k < |rest| ==> before(s[0], rest[k]) by {
        forall k | 0 <= k < |rest| ensures before(s[0], rest[k]) {
          assert rest[k] in multiset(rest);
          assert rest[k] == x || rest[k] in s[1..];
        }
      }
      [s[0]] + rest
  }

  /** The elements of `s`, each occurrence kept, in `before` order. */
  function Sort<T(!new)>(s: seq<T>, before: (T, T) -> bool): (r: seq<T>)
    requires TotalPreorder(before)
    ensures SortedBy(r, before)
    ensures multiset(r) == multiset(s) && |r| == |s|
    decreases |s|
  {
    if s == [] then []
    else
      assert s == [s[0]] + s[1..];
      Insert(s[0], Sort(s[1..], before), before)
  }
}

=== FILE: src/strings.dfy ===
/**
 * JavaScript string operations the application relies on, over `seq<char>`:
 * the `\s` character class and `trim()`, `startsWith`, `indexOf`/`replace`
 * with a string pattern, ASCII `toLowerCase`, decimal rendering of numbers,
 * and the ordering of the `<=` operator on strings.
 */
module Strings {
  import opened Wrappers

  /** JavaScript's `\s`: the characters `trim()` strips and the regular expressions' `\s` matches. */
  predicate IsWhitespace(c: char) {
    c == ' ' || c == '\t' || c == '\n' || c == '\r' || c == '\U{000B}' || c == '\U{000C}'
    || c == '\U{00A0}' || c == '\U{1680}' || ('\U{2000}' <= c <= '\U{200A}')
    || c == '\U{2028}' || c == '\U{2029}' || c == '\U{202F}' || c == '\U{205F}'
    || c == '\U{3000}' || c == '\U{FEFF}'
  }

  /** The regular expressions' `\d`. */
  predicate IsDigit(c: char) {
    '0' <= c <= '9'
  }

  /** `[a-zA-Z]` */
  predicate IsAsciiLetter(c: char) {
    ('a' <= c <= 'z') || ('A' <= c <= 'Z')
  }

  /** The regular expressions' `\w`: `[A-Za-z0-9_]`. */
  predicate IsWordChar(c: char) {
    IsAsciiLetter(c) || IsDigit(c) || c == '_'
  }

  predicate AllWhitespace(s: string) {
    forall k :: 0 <= k < |s| ==> IsWhitespace(s[k])
  }

  predicate AllDigits(s: string) {
    forall k :: 0 <= k < |s| ==> IsDigit(s[k])
  }

  /** The number of whitespace characters `s` starts with. */
  function LeadingWhitespace(s: string): (n: nat)
    ensures n <= |s|
    ensures forall k :: 0 <= k < n ==> IsWhitespace(s[k])
    ensures n < |s| ==> !IsWhitespace(s[n])
    decreases |s|
  {
    if s != [] && IsWhitespace(s[0]) then
      var n := 1 + LeadingWhitespace(s[1..]);
      assert forall k :: 1 <= k < n ==> s[k] == s[1..][k - 1];
      n
    else 0
  }

  /** The number of whitespace characters `s` ends with. */
  function TrailingWhitespace(s: string): (n: nat)
    ensures n <= |s|
    ensures forall k :: |s| - n <= k < |s| ==> IsWhitespace(s[k])
    ensures n < |s| ==> !IsWhitespace(s[|s| - 1 - n])
    decreases |s|
  {
    if s != [] && IsWhitespace(s[|s| - 1]) then
      var n := 1 + TrailingWhitespace(s[..|s| - 1]);
      assert forall k :: |s| - n <= k < |s| - 1 ==> s[k] == s[..|s| - 1][k];
      n
    else 0
  }

  /** `String.prototype.trim`: `s` with whitespace removed from both ends. */
  function Trim(s: string): (r: string)
    ensures |r| <= |s|
    ensures r == [] || (!IsWhitespace(r[0]) && !IsWhitespace(r[|r| - 1]))
    ensures r == [] <==> AllWhitespace(s)
    ensures LeadingWhitespace(s) + |r| <= |s|
    ensures forall k :: 0 <= k < |r| ==> r[k] == s[LeadingWhitespace(s) + k]
  {
    var i := LeadingWhitespace(s);
    var j := |s| - TrailingWhitespace(s);
    if i >= j then
      assert i == |s|;
      []
    else
      assert !IsWhitespace(s[j - 1]);
      s[i..j]
  }

  /** Trimming removes nothing from a string whose ends are not whitespace. */
  lemma TrimUntouched(s: string)
    requires s != [] && !IsWhitespace(s[0]) && !IsWhitespace(s[|s| - 1])
    ensures Trim(s) == s
  {
  }

  /** `trim()` is idempotent. */
  lemma TrimIdempotent(s: string)
    ensures Trim(Trim(s)) == Trim(s)
  {
    if Trim(s) != [] {
      TrimUntouched(Trim(s));
    }
  }

  /** `s.startsWith(p)` */
  predicate StartsWith(s: string, p: string) {
    |p| <= |s| && s[..|p|] == p
  }

  /** `pat` occurs in `s` at index `k`. */
  predicate OccursAt(s: string, pat: string, k: int) {
    0 <= k && k + |pat| <= |s| && s[k..k + |pat|] == pat
  }

  /** The first index at or after `from` where `pat` occurs in `s`. */
  function IndexOfFrom(s: string, pat: string, from: nat): (r: Option<nat>)
    requires from <= |s|
    ensures r.Some? ==> from <= r.value && OccursAt(s, pat, r.value)
    ensures r.Some? ==> forall k :: from <= k < r.value ==> !OccursAt(s, pat, k)
    ensures r.None? ==> forall k :: from <= k ==> !OccursAt(s, pat, k)
    decreases |s| - from
  {
    if from + |pat| > |s| then None
    else if OccursAt(s, pat, from) then Some(from)
    else if from == |s| then None
    else IndexOfFrom(s, pat, from + 1)
  }

  /** `s.indexOf(pat)`, with `None` for -1: the first occurrence of `pat`. */
  function IndexOf(s: string, pat: string): (r: Option<nat>)
    ensures r.Some? ==> OccursAt(s, pat, r.value) && forall k :: 0 <= k < r.value ==> !OccursAt(s, pat, k)
    ensures r.None? ==> forall k :: !OccursAt(s, pat, k)
  {
    IndexOfFrom(s, pat, 0)
  }

  /**
   * `s.replace(pat, rep)` with a string pattern: only the first occurrence of
   * `pat` is replaced; `s` is returned unchanged when `pat` does not occur.
   */
  function ReplaceFirst(s: string, pat: string, rep: string): (r: string)
    ensures IndexOf(s, pat).None? ==> r == s
    ensures IndexOf(s, pat).Some? ==> |r| == |s| - |pat| + |rep|
  {
    match IndexOf(s, pat)
    case None => s
    case Some(i) => s[..i] + rep + s[i + |pat|..]
  }

  /**
   * Replacing in `a + pat + b`, where `pat` does not start anywhere before the
   * end of `a`, substitutes that occurrence and leaves `b` (and any later
   * occurrence of `pat` in it) literally as it was.
   */
  lemma ReplaceFirstAt(a: string, pat: string, b: string, rep: string)
    requires forall k :: 0 <= k < |a| ==> !OccursAt(a + pat + b, pat, k)
    ensures ReplaceFirst(a + pat + b, pat, rep) == a + rep + b
  {
    var s := a + pat + b;
    assert s[|a|..|a| + |pat|] == pat;
    assert OccursAt(s, pat, |a|);
    var i := IndexOf(s, pat);
    assert i == Some(|a|);
    assert s[..|a|] == a;
    assert s[|a| + |pat|..] == b;
  }

  /** ASCII `toLowerCase` of one character. */
  function LowerChar(c: char): char {
    if 'A' <= c <= 'Z' then (c as int + 32) as char else c
  }

  /** `s.toLowerCase()` on ASCII letters: same length, no upper-case ASCII letter left. */
  function Lower(s: string): (r: string)
    ensures |r| == |s|
    ensures forall k :: 0 <= k < |r| ==> !('A' <= r[k] <= 'Z')
    ensures forall k :: 0 <= k < |r| ==> r[k] == LowerChar(s[k])
  {
    seq(|s|, k requires 0 <= k < |s| => LowerChar(s[k]))
  }

  /** Lower-casing is idempotent. */
  lemma LowerIdempotent(s: string)
    ensures Lower(Lower(s)) == Lower(s)
  {
  }

  /**
   * JavaScript's `a <= b` on two strings: `a` is a prefix of `b`, or at the
   * first position where they differ `a` has the smaller character.
   * (Dafny's `<=` on sequences means "is a prefix of", so this is written out.)
   */
  predicate LexLe(a: string, b: string)
    decreases |a|
  {
    if a == [] then true
    else if b == [] then false
    else if a[0] != b[0] then a[0] < b[0]
    else LexLe(a[1..], b[1..])
  }

  lemma {:induction false} LexLeReflexive(a: string)
    ensures LexLe(a, a)
    decreases |a|
  {
    if a != [] {
      LexLeReflexive(a[1..]);
    }
  }

  lemma {:induction false} LexLeTotal(a: string, b: string)
    ensures LexLe(a, b) || LexLe(b, a)
    decreases |a|
  {
    if a != [] && b != [] && a[0] == b[0] {
      LexLeTotal(a[1..], b[1..]);
    }
  }

  lemma {:induction false} LexLeAntisymmetric(a: string, b: string)
    requires LexLe(a, b) && LexLe(b, a)
    ensures a == b
    decreases |a|
  {
    if a != [] && b != [] {
      LexLeAntisymmetric(a[1..], b[1..]);
      assert a == [a[0]] + a[1..] && b == [b[0]] + b[1..];
    }
  }

  lemma {:induction false} LexLeTransitive(a: string, b: string, c: string)
    requires LexLe(a, b) && LexLe(b, c)
    ensures LexLe(a, c)
    decreases |a|
  {
    if a != [] && b != [] && c != [] && a[0] == b[0] && b[0] == c[0] {
      LexLeTransitive(a[1..], b[1..], c[1..]);
    }
  }

  /** The decimal digit for `d`. */
  function DigitChar(d: nat): (c: char)
    requires d < 10
    ensures IsDigit(c) && c as int == '0' as int + d
  {
    ('0' as int + d) as char
  }

  /** JavaScript's rendering of a non-negative integer: its decimal digits. */
  function NatToString(n: nat): (r: string)
    ensures r != [] && AllDigits(r)
    ensures |r| == 1 <==> n < 10
  {
    if n < 10 then [DigitChar(n)] else NatToString(n / 10) + [DigitChar(n % 10)]
  }

  /** JavaScript's rendering of an integer: a minus sign before negative numbers. */
  function IntToString(i: int): (r: string)
    ensures r != []
    ensures (r[0] == '-') <==> i < 0
  {
    if i < 0 then "-" + NatToString(-i) else NatToString(i)
  }
}

=== FILE: src/time_format.dfy ===
/**
 * The `HH:MM` time format shared by the entry schema (wakeUpTime, sleepTime)
 * and the client-side `time` validator: the regular expression
 * `^([01]?[0-9]|2[0-3]):[0-5][0-9]$`, which also admits a one-digit hour.
 */
module TimeFormat {
  import opened Strings

  /** `([01]?[0-9]|2[0-3])` */
  predicate HourField(h: string) {
    || (|h| == 1 && IsDigit(h[0]))
    || (|h| == 2 && (h[0] == '0' || h[0] == '1') && IsDigit(h[1]))
    || (|h| == 2 && h[0] == '2' && '0' <= h[1] <= '3')
  }

  /** `[0-5][0-9]` */
  predicate MinuteField(m: string) {
    |m| == 2 && '0' <= m[0] <= '5' && IsDigit(m[1])
  }

  /** The regular expression read as a concatenation: an hour field, `:`, a minute field, nothing else. */
  ghost predicate MatchesTimeRegex(s: string) {
    exists k :: 0 <= k < |s| && s[k] == ':' && HourField(s[..k]) && MinuteField(s[k + 1..])
  }

  /** An executable form of the time pattern: the colon is third from the end. */
  predicate IsClockTime(s: string) {
    |s| >= 4 && s[|s| - 3] == ':' && HourField(s[..|s| - 3]) && MinuteField(s[|s| - 2..])
  }

  /** The test accepts exactly the strings the regular expression matches. */
  lemma IsClockTimeMatchesRegex(s: string)
    ensures IsClockTime(s) <==> MatchesTimeRegex(s)
  {
    if MatchesTimeRegex(s) {
      var k :| 0 <= k < |s| && s[k] == ':' && HourField(s[..k]) && MinuteField(s[k + 1..]);
      assert k == |s| - 3;
    }
    if IsClockTime(s) {
      assert s[|s| - 3 + 1..] == s[|s| - 2..];
    }
  }

  function DigitValue(c: char): int {
    c as int - '0' as int
  }

  /** The hour a clock time denotes. */
  function Hours(s: string): int
    requires IsClockTime(s)
  {
    if |s| == 4 then DigitValue(s[0]) else 10 * DigitValue(s[0]) + DigitValue(s[1])
  }

  /** The minute a clock time denotes. */
  function Minutes(s: string): int
    requires IsClockTime(s)
  {
    10 * DigitValue(s[|s| - 2]) + DigitValue(s[|s| - 1])
  }

  /** Minutes since midnight. */
  function MinuteOfDay(s: string): int
    requires IsClockTime(s)
  {
    60 * Hours(s) + Minutes(s)
  }

  /** Two decimal digits of `n < 100`. */
  function TwoDigits(n: nat): (r: string)
    requires n < 100
    ensures |r| == 2 && AllDigits(r)
    ensures 10 * DigitValue(r[0]) + DigitValue(r[1]) == n
  {
    [DigitChar(n / 10), DigitChar(n % 10)]
  }

  /** Two digits are the rendering of the number they denote. */
  lemma TwoDigitsOf(c0: char, c1: char)
    requires IsDigit(c0) && IsDigit(c1)
    ensures TwoDigits(10 * DigitValue(c0) + DigitValue(c1)) == [c0, c1]
  {
    var n := 10 * DigitValue(c0) + DigitValue(c1);
    assert n / 10 == DigitValue(c0) && n % 10 == DigitValue(c1);
  }

  /** The zero-padded `HH:MM` rendering. */
  function Padded(h: nat, m: nat): string
    requires h < 24 && m < 60
  {
    TwoDigits(h) + ":" + TwoDigits(m)
  }

  /** The one-digit-hour `H:MM` rendering the pattern also accepts. */
  function Unpadded(h: nat, m: nat): string
    requires h < 10 && m < 60
  {
    [DigitChar(h)] + ":" + TwoDigits(m)
  }

  /** Every accepted string is hour 0-23 and minute 0-59, written padded or (below 10 o'clock) unpadded. */
  lemma ClockTimeMeaning(s: string)
    requires IsClockTime(s)
    ensures 0 <= Hours(s) < 24 && 0 <= Minutes(s) < 60
    ensures |s| == 5 ==> s == Padded(Hours(s), Minutes(s))
    ensures |s| == 4 ==> Hours(s) < 10 && s == Unpadded(Hours(s), Minutes(s))
  {
    TwoDigitsOf(s[|s| - 2], s[|s| - 1]);
    if |s| == 5 {
      TwoDigitsOf(s[0], s[1]);
      assert s == [s[0], s[1]] + ":" + [s[3], s[4]];
    } else {
      assert DigitChar(Hours(s)) == s[0];
      assert s == [s[0]] + ":" + [s[2], s[3]];
    }
  }

  /** Every hour 0-23 and minute 0-59 is accepted padded, and below 10 o'clock unpadded too. */
  lemma ClockTimesAccepted(h: nat, m: nat)
    requires h < 24 && m < 60
    ensures IsClockTime(Padded(h, m)) && Hours(Padded(h, m)) == h && Minutes(Padded(h, m)) == m
    ensures h < 10 ==> IsClockTime(Unpadded(h, m)) && Hours(Unpadded(h, m)) == h && Minutes(Unpadded(h, m)) == m
  {
    var p := Padded(h, m);
    assert p[..2] == TwoDigits(h) && p[3..] == TwoDigits(m);
    if h < 10 {
      var u := Unpadded(h, m);
      assert u[..1] == [DigitChar(h)] && u[2..] == TwoDigits(m);
    }
  }

  /** JavaScript's `<=` on two five-character strings, unfolded. */
  lemma LexLeFive(a: string, b: string)
    requires |a| == 5 && |b| == 5 && a[2] == b[2]
    ensures LexLe(a, b) <==>
      || a[0] < b[0]
      || (a[0] == b[0] && a[1] < b[1])
      || (a[0] == b[0] && a[1] == b[1] && a[3] < b[3])
      || (a[0] == b[0] && a[1] == b[1] && a[3] == b[3] && a[4] <= b[4])
  {
    var a1, b1 := a[1..], b[1..];
    var a2, b2 := a1[1..], b1[1..];
    var a3, b3 := a2[1..], b2[1..];
    var a4, b4 := a3[1..], b3[1..];
    var a5, b5 := a4[1..], b4[1..];
    assert a5 == [];
    assert LexLe(a4, b4) <==> a[4] <= b[4];
    assert LexLe(a3, b3) <==> a[3] < b[3] || (a[3] == b[3] && LexLe(a4, b4));
    assert LexLe(a2, b2) <==> LexLe(a3, b3);
    assert LexLe(a1, b1) <==> a[1] < b[1] || (a[1] == b[1] && LexLe(a2, b2));
  }

  /**
   * For zero-padded times, the string order that decides the wake-up bonus is
   * the chronological order.
   */
  lemma PaddedOrderIsChronological(a: string, b: string)
    requires IsClockTime(a) && IsClockTime(b) && |a| == 5 && |b| == 5
    ensures LexLe(a, b) <==> MinuteOfDay(a) <= MinuteOfDay(b)
  {
    LexLeFive(a, b);
  }

  /** Every one-digit-hour time orders after `"04:00"`, though all of them up to 3:59 are earlier. */
  lemma UnpaddedAfterFour(s: string)
    requires IsClockTime(s) && |s| == 4
    ensures !LexLe(s, "04:00")
  {
    assert s[1] == ':';
    if s[0] == '0' {
      assert s[1..][0] == ':' && "04:00"[1..][0] == '4';
    }
  }
}

=== FILE: src/user_model.dfy ===
/**
 * The user document: field validators, defaults and setters, the
 * role-dependent `mentorId` requirement, the password-hashing pre-save hook
 * and `comparePassword`. Hashing (bcrypt) is a function parameter.
 */
module UserModel {
  import opened Wrappers
  import opened Strings
  import opened Ids

  datatype Role = Mentor | Devotee

  const MentorRole: string := "mentor"
  const DevoteeRole: string := "devotee"
  const MinNameLength: nat := 2
  const MinPasswordLength: nat := 6

  /** The `role` enumeration `['mentor', 'devotee']`. */
  function ParseRole(s: string): (r: Option<Role>)
    ensures r == Some(Mentor) <==> s == MentorRole
    ensures r == Some(Devotee) <==> s == DevoteeRole
  {
    if s == MentorRole then Some(Mentor)
    else if s == DevoteeRole then Some(Devotee)
    else None
  }

  /** A stored user; `passwordHash` is the `password` path after the pre-save hook. */
  datatype User = User(
    id: UserId,
    name: string,
    email: string,
    passwordHash: string,
    phone: string,
    role: Role,
    mentorId: Option<UserId>,
    isActive: bool)

  /** What `User.create` is given, as the schema then holds it (password still in clear). */
  datatype UserDraft = UserDraft(
    name: string,
    email: string,
    password: string,
    phone: string,
    role: string,
    mentorId: Option<UserId>,
    isActive: bool)

  /** The `email` setters: lower-cased, then trimmed. */
  function NormalizeEmail(email: string): (r: string)
    ensures r == [] || (!IsWhitespace(r[0]) && !IsWhitespace(r[|r| - 1]))
    ensures forall k :: 0 <= k < |r| ==> !('A' <= r[k] <= 'Z')
  {
    Trim(Lower(email))
  }

  /** Normalising a normalised address changes nothing, so lookups by a stored address find it. */
  lemma NormalizeEmailIdempotent(email: string)
    ensures NormalizeEmail(NormalizeEmail(email)) == NormalizeEmail(email)
  {
    var n := NormalizeEmail(email);
    assert Lower(n) == n;
    TrimIdempotent(Lower(email));
  }

  /**
   * A new document: `name` trimmed, `email` normalised, `role` defaulting to
   * "devotee" when absent, `isActive` true.
   */
  function NewDraft(name: string, email: string, password: string, phone: string,
                    role: Option<string>, mentorId: Option<UserId>): (d: UserDraft)
    ensures d.isActive
    ensures role.None? ==> d.role == DevoteeRole
    ensures d.name == Trim(name) && d.email == NormalizeEmail(email)
  {
    UserDraft(Trim(name), NormalizeEmail(email), password, phone, role.GetOr(DevoteeRole), mentorId, true)
  }

  /** `\w+([\.-]?\w+)*`: word characters, each `.` or `-` followed by a word character. */
  predicate WordRun(s: string) {
    && s != [] && IsWordChar(s[0])
    && forall k {:trigger s[k]} :: 0 <= k < |s| ==>
         IsWordChar(s[k]) || ((s[k] == '.' || s[k] == '-') && k + 1 < |s| && IsWordChar(s[k + 1]))
  }

  /** `\w+([\.-]?\w+)*(\.\w{2,3})+`: a word run whose last segment is `.` and two or three word characters. */
  predicate DomainRun(s: string) {
    && WordRun(s)
    && (|| (|s| >= 3 && s[|s| - 3] == '.' && IsWordChar(s[|s| - 2]) && IsWordChar(s[|s| - 1]))
        || (|s| >= 4 && s[|s| - 4] == '.' && IsWordChar(s[|s| - 3]) && IsWordChar(s[|s| - 2]) && IsWordChar(s[|s| - 1])))
  }

  /** `^\w+([\.-]?\w+)*@\w+([\.-]?\w+)*(\.\w{2,3})+$` */
  predicate EmailPattern(s: string) {
    exists k :: 0 <= k < |s| && s[k] == '@' && WordRun(s[..k]) && DomainRun(s[k + 1..])
  }

  /** A word run holds only word characters, `.` and `-`. */
  lemma WordRunAlphabet(s: string, i: int)
    requires WordRun(s) && 0 <= i < |s|
    ensures IsWordChar(s[i]) || s[i] == '.' || s[i] == '-'
  {
  }

  /** A matching address has exactly one `@`. */
  lemma EmailPatternOneAt(s: string, k: int, j: int)
    requires 0 <= k < |s| && s[k] == '@' && WordRun(s[..k]) && DomainRun(s[k + 1..])
    requires 0 <= j < |s| && s[j] == '@'
    ensures j == k
  {
    if j < k {
      WordRunAlphabet(s[..k], j);
    } else if j > k {
      WordRunAlphabet(s[k + 1..], j - k - 1);
    }
  }

  /** `^\+?[1-9]\d{1,14}$` */
  predicate PhonePattern(s: string) {
    var digits := if s != [] && s[0] == '+' then s[1..] else s;
    2 <= |digits| <= 15 && '1' <= digits[0] <= '9' && AllDigits(digits)
  }

  /** The schema's validators on a document about to be created. */
  predicate ValidDraft(d: UserDraft) {
    && |d.name| >= MinNameLength
    && EmailPattern(d.email)
    && |d.password| >= MinPasswordLength
    && PhonePattern(d.phone)
    && ParseRole(d.role).Some?
    && (d.role == DevoteeRole ==> d.mentorId.Some?)
  }

  /** `mentorId` is required exactly for devotees: a mentor is valid without one, a devotee is not. */
  lemma MentorIdRequiredForDevotees(d: UserDraft)
    ensures ValidDraft(d) && d.role == DevoteeRole ==> d.mentorId.Some?
    ensures ValidDraft(d.(mentorId := None)) <==> ValidDraft(d) && d.role == MentorRole
  {
  }

  /**
   * The pre-save hook: the `password` path is replaced by its hash only when
   * it was modified; otherwise the stored hash is kept as it is.
   */
  function HashIfModified(password: string, passwordModified: bool, hash: string -> string): (r: string)
    ensures passwordModified ==> r == hash(password)
    ensures !passwordModified ==> r == password
  {
    if passwordModified then hash(password) else password
  }

  /** The document a valid draft is stored as: its first save modifies the password, which is hashed. */
  function Stored(id: UserId, d: UserDraft, hash: string -> string): (u: User)
    requires ValidDraft(d)
    ensures u.id == id && u.name == d.name && u.email == d.email && u.phone == d.phone
    ensures u.passwordHash == hash(d.password) && u.mentorId == d.mentorId && u.isActive == d.isActive
    ensures Some(u.role) == ParseRole(d.role)
  {
    User(id, d.name, d.email, HashIfModified(d.password, true, hash), d.phone,
         ParseRole(d.role).value, d.mentorId, d.isActive)
  }

  /** `comparePassword`: the entered password hashes to the stored hash. */
  function ComparePassword(u: User, entered: string, hash: string -> string): bool {
    hash(entered) == u.passwordHash
  }

  /**
   * The password a user registered with is accepted; with an injective hash
   * nothing else is, and re-saving without touching the password keeps it so.
   */
  lemma ComparePasswordAfterSave(id: UserId, d: UserDraft, hash: string -> string, entered: string)
    requires ValidDraft(d)
    ensures ComparePassword(Stored(id, d, hash), d.password, hash)
    ensures (forall a, b :: hash(a) == hash(b) ==> a == b) ==>
              (ComparePassword(Stored(id, d, hash), entered, hash) <==> entered == d.password)
    ensures var u := Stored(id, d, hash);
            ComparePassword(u.(passwordHash := HashIfModified(u.passwordHash, false, hash)), entered, hash)
              == ComparePassword(u, entered, hash)
  {
  }
}

=== FILE: src/validators.dfy ===
/**
 * The client-side form validators and the password-strength meter. Each
 * validator answers with a flag and a message; `parseFloat` is a function
 * the number validator is given (None standing for NaN).
 */
module Validators {
  import opened Wrappers
  import opened Strings
  import opened Seqs
  import opened TimeFormat

  datatype Validation = Validation(isValid: bool, error: string)

  const Passed: Validation := Validation(true, "")

  /** A JavaScript value as a form hands it over: absent, null, or a string. */
  datatype JsValue = Undefined | Null | Str(s: string)

  /** The values `!value` holds for. */
  predicate JsFalsy(v: JsValue) {
    v == Undefined || v == Null || v == Str("")
  }

  /* ----------------------------------------------------------------- email */

  /** `[^\s@]+`: non-empty, no whitespace, no `@`. */
  predicate PlainRun(s: string) {
    s != [] && forall k :: 0 <= k < |s| ==> !IsWhitespace(s[k]) && s[k] != '@'
  }

  /** `^[^\s@]+@[^\s@]+\.[^\s@]+$` read as a concatenation. */
  ghost predicate EmailShape(s: string) {
    exists i, j :: 0 <= i < j < |s| && s[i] == '@' && s[j] == '.' &&
      PlainRun(s[..i]) && PlainRun(s[i + 1..j]) && PlainRun(s[j + 1..])
  }

  /** A `.` in `s` at a position in [lo, hi). */
  predicate DotBetween(s: string, lo: int, hi: int)
    requires 0 <= lo && hi <= |s|
  {
    exists j :: lo <= j < hi && s[j] == '.'
  }

  /**
   * The test the validator runs: no whitespace, exactly one `@`, not first,
   * and a `.` with at least one character between it and the `@` and at
   * least one after it.
   */
  predicate EmailLike(s: string) {
    && (forall k :: 0 <= k < |s| ==> !IsWhitespace(s[k]))
    && match IndexOf(s, "@")
       case None => false
       case Some(i) =>
         && 0 < i
         && (forall k :: i < k < |s| ==> s[k] != '@')
         && i + 2 <= |s| - 1
         && DotBetween(s, i + 2, |s| - 1)
  }

  lemma AtIndex(s: string, i: nat)
    requires i < |s|
    ensures OccursAt(s, "@", i) <==> s[i] == '@'
  {
    if s[i] == '@' {
      assert s[i..i + 1] == "@";
    }
  }

  lemma EmailLikeIsShape(s: string)
    requires EmailLike(s)
    ensures EmailShape(s)
  {
    var i := IndexOf(s, "@").value;
    var j :| i + 2 <= j < |s| - 1 && s[j] == '.';
    AtIndex(s, i);
    forall k | 0 <= k < i ensures s[k] != '@' {
      AtIndex(s, k);
    }
    var a, b, c := s[..i], s[i + 1..j], s[j + 1..];
    assert forall k :: 0 <= k < |a| ==> a[k] == s[k];
    assert forall k :: 0 <= k < |b| ==> b[k] == s[i + 1 + k];
    assert forall k :: 0 <= k < |c| ==> c[k] == s[j + 1 + k];
    assert PlainRun(a) && PlainRun(b) && PlainRun(c);
  }

  lemma ShapeIsEmailLike(s: string)
    requires EmailShape(s)
    ensures EmailLike(s)
  {
    var i, j :| 0 <= i < j < |s| && s[i] == '@' && s[j] == '.' &&
      PlainRun(s[..i]) && PlainRun(s[i + 1..j]) && PlainRun(s[j + 1..]);
    var a, b, c := s[..i], s[i + 1..j], s[j + 1..];
    assert forall k :: 0 <= k < i ==> s[k] == a[k];
    assert forall k :: i < k < j ==> s[k] == b[k - i - 1];
    assert forall k :: j < k < |s| ==> s[k] == c[k - j - 1];
    assert forall k :: 0 <= k < |s| ==> !IsWhitespace(s[k]);
    AtIndex(s, i);
    forall k | 0 <= k < i ensures !OccursAt(s, "@", k) {
      AtIndex(s, k);
    }
    assert IndexOf(s, "@") == Some(i);
    assert DotBetween(s, i + 2, |s| - 1);
  }

  /** The test accepts exactly the addresses the regular expression matches. */
  lemma EmailLikeMatchesShape(s: string)
    ensures EmailLike(s) <==> EmailShape(s)
  {
    if EmailLike(s) {
      EmailLikeIsShape(s);
    }
    if EmailShape(s) {
      ShapeIsEmailLike(s);
    }
  }

  /** `validators.email` */
  function Email(value: string): (r: Validation)
    ensures r.isValid <==> r.error == ""
    ensures value == "" ==> r.error == "Email is required"
    ensures value != "" ==> (r.isValid <==> EmailShape(value))
    ensures value != "" && !r.isValid ==> r.error == "Invalid email format"
  {
    EmailLikeMatchesShape(value);
    if value == "" then Validation(false, "Email is required")
    else if !EmailLike(value) then Validation(false, "Invalid email format")
    else Passed
  }

  /* -------------------------------------------------------------- password */

  const DefaultMinPasswordLength: int := 6

  /** `validators.password`, `minLength` defaulting to 6. */
  function Password(value: string, minLength: int): (r: Validation)
    ensures r.isValid <==> r.error == ""
    ensures r.isValid <==> value != "" && |value| >= minLength
    ensures value == "" ==> r.error == "Password is required"
    ensures value != "" && |value| < minLength ==>
              r.error == "Password must be at least " + IntToString(minLength) + " characters"
  {
    if value == "" then Validation(false, "Password is required")
    else if |value| < minLength then
      Validation(false, "Password must be at least " + IntToString(minLength) + " characters")
    else Passed
  }

  /* ------------------------------------------------------------------ name */

  /** `^[a-zA-Z\s]+$` */
  predicate LettersAndSpaces(s: string) {
    s != [] && forall k :: 0 <= k < |s| ==> IsAsciiLetter(s[k]) || IsWhitespace(s[k])
  }

  /** `validators.name`: required, at least two characters once trimmed, only letters and spaces. */
  function Name(value: string): (r: Validation)
    ensures r.isValid <==> r.error == ""
    ensures r.isValid <==> |Trim(value)| >= 2 && LettersAndSpaces(value)
    ensures value == "" ==> r.error == "Name is required"
    ensures value != "" && |Trim(value)| < 2 ==> r.error == "Name must be at least 2 characters"
  {
    if value == "" then Validation(false, "Name is required")
    else if |Trim(value)| < 2 then Validation(false, "Name must be at least 2 characters")
    else if !LettersAndSpaces(value) then Validation(false, "Name can only contain letters and spaces")
    else Passed
  }

  /* ----------------------------------------------------------------- phone */

  predicate NotWhitespace(c: char) {
    !IsWhitespace(c)
  }

  /** `s.replace(/\s/g, '')` */
  function RemoveWhitespace(s: string): (r: string)
    ensures forall k :: 0 <= k < |r| ==> !IsWhitespace(r[k])
  {
    Filter(s, NotWhitespace)
  }

  /** Removing whitespace drops a space wherever it stands. */
  lemma RemoveWhitespaceSpace(a: string, b: string)
    ensures RemoveWhitespace(a + " " + b) == RemoveWhitespace(a + b)
  {
    var space := [' '];
    assert space[1..] == [];
    assert Filter(space, NotWhitespace) == [];
    assert a + " " + b == (a + space) + b;
    FilterAppend(a + space, b, NotWhitespace);
    FilterAppend(a, space, NotWhitespace);
    FilterAppend(a, b, NotWhitespace);
  }

  /** `validators.phone`: a `+`, then 10 to 15 digits once whitespace is removed. */
  function Phone(value: string): (r: Validation)
    ensures r.isValid <==> r.error == ""
    ensures r.isValid <==>
              && value != [] && value[0] == '+'
              && 10 <= |RemoveWhitespace(value[1..])| <= 15 && AllDigits(RemoveWhitespace(value[1..]))
    ensures value == "" ==> r.error == "Phone number is required"
    ensures value != "" && value[0] != '+' ==> r.error == "Phone must start with country code (e.g., +91)"
  {
    if value == "" then Validation(false, "Phone number is required")
    else if value[0] != '+' then Validation(false, "Phone must start with country code (e.g., +91)")
    else
      var digitsOnly := RemoveWhitespace(value[1..]);
      if !(10 <= |digitsOnly| <= 15 && AllDigits(digitsOnly)) then
        Validation(false, "Phone must have 10-15 digits after country code")
      else Passed
  }

  /** Spaces between the digits do not matter. */
  lemma PhoneIgnoresSpaces(a: string, b: string)
    ensures Phone("+" + a + " " + b).isValid == Phone("+" + a + b).isValid
  {
    assert ("+" + a + " " + b)[1..] == a + " " + b;
    assert ("+" + a + b)[1..] == a + b;
    RemoveWhitespaceSpace(a, b);
  }

  /* ---------------------------------------------------------------- number */

  /**
   * `validators.number`: required (not '', null or undefined), parsable, and
   * within [min, max]; `max` None is Infinity.
   */
  function Number(value: JsValue, min: int, max: Option<int>, fieldName: string,
                  parseFloat: string -> Option<real>): (r: Validation)
    ensures r.isValid <==> r.error == ""
    ensures JsFalsy(value) ==> r.error == fieldName + " is required"
    ensures r.isValid <==>
              && !JsFalsy(value)
              && parseFloat(value.s).Some?
              && min as real <= parseFloat(value.s).value
              && (max.Some? ==> parseFloat(value.s).value <= max.value as real)
    ensures !JsFalsy(value) && parseFloat(value.s).None? ==> r.error == fieldName + " must be a number"
  {
    if JsFalsy(value) then Validation(false, fieldName + " is required")
    else match parseFloat(value.s)
      case None => Validation(false, fieldName + " must be a number")
      case Some(num) =>
        if num < min as real then Validation(false, fieldName + " must be at least " + IntToString(min))
        else if max.Some? && num > max.value as real then
          Validation(false, fieldName + " cannot exceed " + IntToString(max.value))
        else Passed
  }

  /* -------------------------------------------------------------- required */

  /** `validators.required`: not falsy and not only whitespace. */
  function Required(value: JsValue, fieldName: string): (r: Validation)
    ensures r.isValid <==> r.error == ""
    ensures r.isValid <==> value.Str? && !AllWhitespace(value.s)
    ensures !r.isValid ==> r.error == fieldName + " is required"
  {
    if JsFalsy(value) || (value.Str? && Trim(value.s) == "") then Validation(false, fieldName + " is required")
    else Passed
  }

  /* ------------------------------------------------------------------ time */

  /** `validators.time`: the `HH:MM` format, a one-digit hour allowed. */
  function Time(value: string): (r: Validation)
    ensures r.isValid <==> r.error == ""
    ensures r.isValid <==> MatchesTimeRegex(value)
    ensures value == "" ==> r.error == "Time is required"
  {
    IsClockTimeMatchesRegex(value);
    if value == "" then Validation(false, "Time is required")
    else if !IsClockTime(value) then Validation(false, "Invalid time format (HH:MM)")
    else Passed
  }

  /** Every time the validator accepts names a real hour and minute. */
  lemma TimeAcceptsClockTimes(value: string)
    requires Time(value).isValid
    ensures 0 <= Hours(value) < 24 && 0 <= Minutes(value) < 60
  {
    ClockTimeMeaning(value);
  }

  /* ------------------------------------------------------ password strength */

  predicate HasLower(p: string) {
    exists k :: 0 <= k < |p| && 'a' <= p[k] <= 'z'
  }

  predicate HasUpper(p: string) {
    exists k :: 0 <= k < |p| && 'A' <= p[k] <= 'Z'
  }

  predicate HasDigit(p: string) {
    exists k :: 0 <= k < |p| && IsDigit(p[k])
  }

  /** `/[^a-zA-Z\d]/` */
  predicate HasSymbol(p: string) {
    exists k :: 0 <= k < |p| && !IsAsciiLetter(p[k]) && !IsDigit(p[k])
  }

  function Indicator(b: bool): nat {
    if b then 1 else 0
  }

  /** How many of the five criteria the password meets. */
  function CriteriaMet(p: string): (n: nat)
    ensures n <= 5
  {
    Indicator(|p| >= 6) + Indicator(|p| >= 10) + Indicator(HasLower(p) && HasUpper(p))
    + Indicator(HasDigit(p)) + Indicator(HasSymbol(p))
  }

  datatype Strength = Strength(strength: nat, labelText: string, color: string)

  /**
   * `getPasswordStrength`: nothing for an empty password; otherwise the number
   * of criteria met, labelled Weak (up to 2), Fair (3), Good (4) or Strong (5).
   */
  method GetPasswordStrength(password: string) returns (r: Strength)
    ensures password == "" ==> r == Strength(0, "", "")
    ensures password != "" ==> r.strength == CriteriaMet(password)
    ensures password != "" ==>
              && (r.labelText == "Weak" <==> r.strength <= 2)
              && (r.labelText == "Fair" <==> r.strength == 3)
              && (r.labelText == "Good" <==> r.strength == 4)
              && (r.labelText == "Strong" <==> r.strength == 5)
    ensures password != "" ==>
              r.color == (if r.strength <= 2 then "#f44336" else if r.strength <= 3 then "#ff9800"
                          else if r.strength <= 4 then "#2196f3" else "#4caf50")
  {
    if password == "" {
      return Strength(0, "", "");
    }
    var strength: nat := 0;
    if |password| >= 6 {
      strength := strength + 1;
    }
    if |password| >= 10 {
      strength := strength + 1;
    }
    if HasLower(password) && HasUpper(password) {
      strength := strength + 1;
    }
    if HasDigit(password) {
      strength := strength + 1;
    }
    if HasSymbol(password) {
      strength := strength + 1;
    }
    if strength <= 2 {
      return Strength(strength, "Weak", "#f44336");
    }
    if strength <= 3 {
      return Strength(strength, "Fair", "#ff9800");
    }
    if strength <= 4 {
      return Strength(strength, "Good", "#2196f3");
    }
    return Strength(strength, "Strong", "#4caf50");
  }

  /** Typing more characters never weakens a password. */
  lemma CriteriaMonotone(p: string, q: string)
    ensures CriteriaMet(p) <= CriteriaMet(p + q)
  {
    var s := p + q;
    assert forall k :: 0 <= k < |p| ==> s[k] == p[k];
    if HasLower(p) {
      var k :| 0 <= k < |p| && 'a' <= p[k] <= 'z';
      assert 'a' <= s[k] <= 'z';
    }
    if HasUpper(p) {
      var k :| 0 <= k < |p| && 'A' <= p[k] <= 'Z';
      assert 'A' <= s[k] <= 'Z';
    }
    if HasDigit(p) {
      var k :| 0 <= k < |p| && IsDigit(p[k]);
      assert IsDigit(s[k]);
    }
    if HasSymbol(p) {
      var k :| 0 <= k < |p| && !IsAsciiLetter(p[k]) && !IsDigit(p[k]);
      assert !IsAsciiLetter(s[k]) && !IsDigit(s[k]);
    }
  }

  /** A password the signup form accepts (six characters or more) meets at least one criterion. */
  lemma AcceptedPasswordNotEmptyStrength(p: string)
    requires Password(p, DefaultMinPasswordLength).isValid
    ensures CriteriaMet(p) >= 1
  {
  }
}

=== FILE: src/whatsapp_controller.dfy ===
/**
 * The WhatsApp handlers without the provider: phone-number prefixing,
 * `{name}` personalisation, the single, bulk and reminder sends and their
 * per-recipient accounting. The provider is a function from (to, body) to
 * the outcome of that send.
 */
module WhatsAppController {
  import opened Wrappers
  import opened Strings
  import opened Seqs

  const WhatsAppPrefix: string := "whatsapp:"
  const NamePlaceholder: string := "{name}"
  const FallbackName: string := "devotee"

  /** The message of the TypeError raised when a recipient has no phone. */
  const MissingPhoneError: string := "Cannot read properties of undefined (reading 'startsWith')"

  /** What the provider answers to one send. */
  datatype SendOutcome = Sent(sid: string) | SendFailed(error: string)

  /** The address a message goes to: the phone with "whatsapp:" in front, unless it already starts with it. */
  function FormatPhone(phone: string): (r: string)
    ensures StartsWith(r, WhatsAppPrefix)
    ensures StartsWith(phone, WhatsAppPrefix) ==> r == phone
    ensures !StartsWith(phone, WhatsAppPrefix) ==> r == WhatsAppPrefix + phone
  {
    if StartsWith(phone, WhatsAppPrefix) then phone else WhatsAppPrefix + phone
  }

  /** Formatting an already formatted address changes nothing. */
  lemma FormatPhoneIdempotent(phone: string)
    ensures FormatPhone(FormatPhone(phone)) == FormatPhone(phone)
  {
  }

  /** `message.replace('{name}', name)`: the first placeholder only. */
  function Personalise(message: string, name: string): (r: string)
    ensures IndexOf(message, NamePlaceholder).None? ==> r == message
  {
    ReplaceFirst(message, NamePlaceholder, name)
  }

  /**
   * With the first placeholder after `a`, the name takes its place and the
   * rest, later placeholders included, stays literal.
   */
  lemma PersonaliseFirstOnly(a: string, b: string, name: string)
    requires forall k :: 0 <= k < |a| ==> !OccursAt(a + NamePlaceholder + b, NamePlaceholder, k)
    ensures Personalise(a + NamePlaceholder + b, name) == a + name + b
  {
    ReplaceFirstAt(a, NamePlaceholder, b, name);
  }

  /** For instance, of two placeholders only the first is filled in. */
  lemma PersonaliseTwoPlaceholders(name: string)
    ensures Personalise("Hi " + NamePlaceholder + ", " + NamePlaceholder, name) == "Hi " + name + ", " + NamePlaceholder
  {
    var a, b := "Hi ", ", " + NamePlaceholder;
    assert a + NamePlaceholder + b == "Hi " + NamePlaceholder + ", " + NamePlaceholder;
    assert a + name + b == "Hi " + name + ", " + NamePlaceholder;
    forall k | 0 <= k < |a| ensures !OccursAt(a + NamePlaceholder + b, NamePlaceholder, k) {
      assert (a + NamePlaceholder + b)[k] == a[k] != '{';
    }
    PersonaliseFirstOnly(a, b, name);
  }

  /* ------------------------------------------------------ sendWhatsAppMessage */

  datatype SingleResponse = SingleSent(messageSid: string) | SingleRejected | SingleFailed(error: string)

  function SingleStatus(r: SingleResponse): int {
    match r
    case SingleSent(_) => 200
    case SingleRejected => 400
    case SingleFailed(_) => 500
  }

  function SingleMessage(r: SingleResponse): string {
    match r
    case SingleSent(_) => "WhatsApp message sent successfully"
    case SingleRejected => "Phone number and message are required"
    case SingleFailed(_) => "Failed to send WhatsApp message"
  }

  /** A body field that JavaScript treats as false: absent or empty. */
  predicate Falsy(s: Option<string>) {
    s.None? || s.value == ""
  }

  /**
   * `sendWhatsAppMessage`: 400 without sending when the phone or the message
   * is missing or empty; otherwise the message, as given, goes to the
   * formatted address, and the provider's answer decides 200 or 500.
   */
  function SendSingle(phone: Option<string>, message: Option<string>, send: (string, string) -> SendOutcome)
    : (r: SingleResponse)
    ensures r.SingleRejected? <==> Falsy(phone) || Falsy(message)
    ensures !r.SingleRejected? ==>
              (r.SingleSent? <==> send(FormatPhone(phone.value), message.value).Sent?)
    ensures r.SingleSent? ==> r.messageSid == send(FormatPhone(phone.value), message.value).sid
  {
    if Falsy(phone) || Falsy(message) then SingleRejected
    else
      match send(FormatPhone(phone.value), message.value)
      case Sent(sid) => SingleSent(sid)
      case SendFailed(error) => SingleFailed(error)
  }

  /* ------------------------------------------- the bulk and reminder loops */

  /** A recipient as the body gives it: `phone` and `name` may be absent. */
  datatype Recipient = Recipient(phone: Option<string>, name: Option<string>)

  /** One entry of `results`. */
  datatype RecipientResult =
    | Delivered(phone: Option<string>, name: Option<string>, messageSid: string)
    | Undelivered(phone: Option<string>, name: Option<string>, error: string)

  predicate IsDelivered(r: RecipientResult) {
    r.Delivered?
  }

  /**
   * How a recipient's name fills the placeholder: the bulk send uses
   * `name || 'devotee'`, the reminder the name as it is (an absent one
   * printing as "undefined").
   */
  datatype NameRule = OrDevotee | AsGiven

  function NameText(name: Option<string>, rule: NameRule): string {
    match rule
    case OrDevotee => if name.None? || name.value == "" then FallbackName else name.value
    case AsGiven => if name.None? then "undefined" else name.value
  }

  /**
   * What a recipient without a name is sent, the placeholder being the first
   * in the message: the bulk send greets "devotee" (an empty name too), the
   * reminder prints "undefined".
   */
  lemma NamelessRecipientText(phone: string, name: Option<string>, a: string, b: string,
                              send: (string, string) -> SendOutcome)
    requires forall k :: 0 <= k < |a| ==> !OccursAt(a + NamePlaceholder + b, NamePlaceholder, k)
    ensures Falsy(name) ==>
              (ResultFor(Recipient(Some(phone), name), a + NamePlaceholder + b, OrDevotee, send).Delivered?
               <==> send(FormatPhone(phone), a + "devotee" + b).Sent?)
    ensures ResultFor(Recipient(Some(phone), None), a + NamePlaceholder + b, AsGiven, send).Delivered?
            <==> send(FormatPhone(phone), a + "undefined" + b).Sent?
  {
    PersonaliseFirstOnly(a, b, "devotee");
    PersonaliseFirstOnly(a, b, "undefined");
  }

  /**
   * The result of one iteration: a recipient without a phone fails on the
   * `startsWith` call; otherwise the personalised message goes to the
   * formatted address and the provider's answer is recorded. Either way the
   * result carries the recipient's own phone and name.
   */
  function ResultFor(rec: Recipient, message: string, rule: NameRule, send: (string, string) -> SendOutcome)
    : (r: RecipientResult)
    ensures r.phone == rec.phone && r.name == rec.name
    ensures r.Delivered? <==>
              rec.phone.Some? && send(FormatPhone(rec.phone.value), Personalise(message, NameText(rec.name, rule))).Sent?
  {
    if rec.phone.None? then Undelivered(rec.phone, rec.name, MissingPhoneError)
    else
      match send(FormatPhone(rec.phone.value), Personalise(message, NameText(rec.name, rule)))
      case Sent(sid) => Delivered(rec.phone, rec.name, sid)
      case SendFailed(error) => Undelivered(rec.phone, rec.name, error)
  }

  /**
   * The `for ... of recipients` loop: one result per recipient, in order; a
   * failed send is recorded and the loop goes on.
   */
  method SendEach(recipients: seq<Recipient>, message: string, rule: NameRule, send: (string, string) -> SendOutcome)
    returns (results: seq<RecipientResult>)
    ensures |results| == |recipients|
    ensures forall k :: 0 <= k < |recipients| ==> results[k] == ResultFor(recipients[k], message, rule, send)
  {
    results := [];
    for i := 0 to |recipients|
      invariant |results| == i
      invariant forall k :: 0 <= k < i ==> results[k] == ResultFor(recipients[k], message, rule, send)
    {
      var recipient := recipients[i];
      var result;
      if recipient.phone.None? {
        result := Undelivered(recipient.phone, recipient.name, MissingPhoneError);
      } else {
        var formattedPhone := FormatPhone(recipient.phone.value);
        var personalizedMessage := Personalise(message, NameText(recipient.name, rule));
        var outcome := send(formattedPhone, personalizedMessage);
        if outcome.Sent? {
          result := Delivered(recipient.phone, recipient.name, outcome.sid);
        } else {
          result := Undelivered(recipient.phone, recipient.name, outcome.error);
        }
      }
      results := results + [result];
    }
  }

  /** The body's `recipients` (or `devotees`) field. */
  datatype RecipientsField = FieldMissing | NotAnArray | RecipientList(list: seq<Recipient>)

  datatype BulkResponse =
    | BulkReport(totalSent: nat, successCount: nat, failedCount: nat, results: seq<RecipientResult>)
    | RecipientsRequired
    | MessageRequired
    | BulkFailed

  function BulkStatus(r: BulkResponse): int {
    match r
    case BulkReport(_, _, _, _) => 200
    case RecipientsRequired => 400
    case MessageRequired => 400
    case BulkFailed => 500
  }

  /** The accounting over a finished loop: every recipient counted once, as sent or as failed. */
  predicate ReportsOn(r: BulkResponse, recipients: seq<Recipient>, message: string, rule: NameRule,
                      send: (string, string) -> SendOutcome) {
    && r.BulkReport?
    && r.totalSent == |recipients| == |r.results|
    && (forall k :: 0 <= k < |recipients| ==> r.results[k] == ResultFor(recipients[k], message, rule, send))
    && r.successCount == Count(r.results, IsDelivered)
    && r.successCount + r.failedCount == r.totalSent
  }

  /** The report's counts say how many recipients were and were not delivered to. */
  lemma ReportCounts(r: BulkResponse, recipients: seq<Recipient>, message: string, rule: NameRule,
                     send: (string, string) -> SendOutcome)
    requires ReportsOn(r, recipients, message, rule, send)
    ensures r.failedCount == 0 <==> forall k :: 0 <= k < |recipients| ==> r.results[k].Delivered?
    ensures r.successCount == 0 <==> forall k :: 0 <= k < |recipients| ==> r.results[k].Undelivered?
    ensures forall k :: 0 <= k < |recipients| && recipients[k].phone.None? ==> r.results[k].Undelivered?
  {
  }

  /**
   * `sendBulkWhatsAppMessages`: 400 without sending when `recipients` is
   * missing, not an array or empty, or when the message is missing or empty;
   * otherwise every recipient is sent to, the name defaulting to "devotee".
   */
  method SendBulk(recipients: RecipientsField, message: Option<string>, send: (string, string) -> SendOutcome)
    returns (response: BulkResponse)
    ensures response == RecipientsRequired <==> !recipients.RecipientList? || recipients.list == []
    ensures response == MessageRequired <==> recipients.RecipientList? && recipients.list != [] && Falsy(message)
    ensures response.BulkReport? ==> ReportsOn(response, recipients.list, message.value, OrDevotee, send)
    ensures !response.BulkFailed?
  {
    if !recipients.RecipientList? || |recipients.list| == 0 {
      return RecipientsRequired;
    }
    if Falsy(message) {
      return MessageRequired;
    }
    var results := SendEach(recipients.list, message.value, OrDevotee, send);
    var successCount := Count(results, IsDelivered);
    response := BulkReport(|recipients.list|, successCount, |recipients.list| - successCount, results);
  }

  const ReminderGreeting: string := "Hare Krishna "
  const ReminderBody: string :=
    ",\n\nThis is a gentle reminder to submit your Sadhna report for today. "
    + "Please fill in your spiritual practice details at your earliest convenience.\n\nYour servant,\n"

  /** The default reminder, signed with the mentor's name. */
  function DefaultReminder(mentorName: string): string {
    ReminderGreeting + NamePlaceholder + ReminderBody + mentorName
  }

  /** The default reminder greets the devotee by name and is signed by the mentor, whatever the mentor's name holds. */
  lemma DefaultReminderPersonalised(mentorName: string, name: string)
    ensures Personalise(DefaultReminder(mentorName), name) == ReminderGreeting + name + ReminderBody + mentorName
  {
    var a, b := ReminderGreeting, ReminderBody + mentorName;
    assert DefaultReminder(mentorName) == a + NamePlaceholder + b;
    forall k | 0 <= k < |a| ensures !OccursAt(a + NamePlaceholder + b, NamePlaceholder, k) {
      assert (a + NamePlaceholder + b)[k] == a[k] != '{';
    }
    PersonaliseFirstOnly(a, b, name);
    assert a + name + b == ReminderGreeting + name + ReminderBody + mentorName;
  }

  /** `customMessage || defaultMessage` */
  function ReminderText(customMessage: Option<string>, mentorName: string): (m: string)
    ensures Falsy(customMessage) ==> m == DefaultReminder(mentorName)
    ensures !Falsy(customMessage) ==> m == customMessage.value
  {
    if Falsy(customMessage) then DefaultReminder(mentorName) else customMessage.value
  }

  /**
   * `sendReminderToMissingDevotees`: 500 when `devotees` is not an array
   * (its `map` fails); otherwise every devotee, even none, is sent the custom
   * message or the default one, the name filled in as given.
   */
  method SendReminder(devotees: RecipientsField, customMessage: Option<string>, mentorName: string,
                      send: (string, string) -> SendOutcome)
    returns (response: BulkResponse)
    ensures response.BulkFailed? <==> !devotees.RecipientList?
    ensures response.BulkReport? <==> devotees.RecipientList?
    ensures response.BulkReport? ==>
              ReportsOn(response, devotees.list, ReminderText(customMessage, mentorName), AsGiven, send)
  {
    var message := ReminderText(customMessage, mentorName);
    if !devotees.RecipientList? {
      return BulkFailed;
    }
    var recipients := devotees.list;
    var results := SendEach(recipients, message, AsGiven, send);
    var successCount := Count(results, IsDelivered);
    response := BulkReport(|recipients|, successCount, |recipients| - successCount, results);
  }
}

=== FILE: src/whatsapp_page.dfy ===
/**
 * The messaging page: the list of devotees who have not submitted, the
 * selection of ids to remind, and the send handler's guards and recipient
 * list. Fetching the list and sending the reminders are functions the page
 * is given.
 */
module WhatsAppPage {
  import opened Wrappers
  import opened Ids
  import opened Strings
  import opened Seqs

  /** A devotee as the missing-submissions list gives it. */
  datatype ListedDevotee = ListedDevotee(id: UserId, name: string, email: string, phone: string)

  function NotEqualTo(id: UserId): UserId -> bool {
    (x: UserId) => x != id
  }

  /**
   * `handleToggleDevotee`: a selected id is removed (every occurrence), an
   * unselected one is appended. A removal keeps the other ids in their order
   * (`idx` gives their old positions, strictly increasing, and skips only
   * positions holding `id`), and takes one off the count when no id was
   * selected twice.
   */
  function Toggle(selected: seq<UserId>, id: UserId): (r: seq<UserId>)
    ensures id in selected ==> id !in r && forall x :: x != id ==> (x in r <==> x in selected)
    ensures id in selected ==>
              var idx := FilterIndices(selected, NotEqualTo(id));
              && |idx| == |r|
              && (forall k :: 0 <= k < |r| ==> idx[k] < |selected| && r[k] == selected[idx[k]])
              && (forall k, l :: 0 <= k < l < |idx| ==> idx[k] < idx[l])
              && (forall i :: 0 <= i < |selected| && i !in idx ==> selected[i] == id)
    ensures id in selected && NoDuplicates(selected) ==> |r| == |selected| - 1
    ensures id !in selected ==> r == selected + [id]
  {
    if id in selected then
      FilterIndicesCorrect(selected, NotEqualTo(id));
      FilterDropsOne(selected, NotEqualTo(id), id);
      Filter(selected, NotEqualTo(id))
    else selected + [id]
  }

  /** Toggling an unselected id twice gives back the selection as it was. */
  lemma ToggleTwice(selected: seq<UserId>, id: UserId)
    requires id !in selected
    ensures Toggle(Toggle(selected, id), id) == selected
  {
    FilterAppend(selected, [id], NotEqualTo(id));
    FilterKeepsAll(selected, NotEqualTo(id));
    assert Filter([id], NotEqualTo(id)) == [] by {
      assert [id][1..] == [];
    }
  }

  /** Toggling never puts an id in the selection twice. */
  lemma ToggleNoDuplicates(selected: seq<UserId>, id: UserId)
    requires NoDuplicates(selected)
    ensures NoDuplicates(Toggle(selected, id))
  {
    if id in selected {
      FilterNoDuplicates(selected, NotEqualTo(id));
    }
  }

  /** `missingDevotees.map(d => d._id)` */
  function IdsOf(devotees: seq<ListedDevotee>): (r: seq<UserId>)
    ensures |r| == |devotees| && forall k :: 0 <= k < |devotees| ==> r[k] == devotees[k].id
  {
    seq(|devotees|, k requires 0 <= k < |devotees| => devotees[k].id)
  }

  /**
   * `handleSelectAll`: when as many ids are selected as devotees are listed
   * the selection is cleared, otherwise every listed devotee is selected in
   * list order.
   */
  function SelectAll(selected: seq<UserId>, missing: seq<ListedDevotee>): (r: seq<UserId>)
    ensures |selected| == |missing| ==> r == []
    ensures |selected| != |missing| ==> r == IdsOf(missing)
  {
    if |selected| == |missing| then [] else IdsOf(missing)
  }

  /** After a select-all that does not clear, every listed devotee is selected. */
  lemma SelectAllSelectsEveryone(selected: seq<UserId>, missing: seq<ListedDevotee>)
    requires |selected| != |missing|
    ensures forall d :: d in missing ==> d.id in SelectAll(selected, missing)
  {
    forall d | d in missing ensures d.id in SelectAll(selected, missing) {
      var k :| 0 <= k < |missing| && missing[k] == d;
      assert SelectAll(selected, missing)[k] == d.id;
    }
  }

  function SelectedIn(selected: seq<UserId>): ListedDevotee -> bool {
    (d: ListedDevotee) => d.id in selected
  }

  /**
   * The devotees a send goes to: the listed ones whose id is selected, in
   * list order. `idx` maps each recipient to its position in the list,
   * strictly increasing, and every position it skips holds an unselected
   * devotee.
   */
  function Recipients(missing: seq<ListedDevotee>, selected: seq<UserId>): (r: seq<ListedDevotee>)
    ensures forall d :: d in r <==> d in missing && d.id in selected
    ensures |r| <= |missing|
    ensures var idx := FilterIndices(missing, SelectedIn(selected));
            && |idx| == |r|
            && (forall k :: 0 <= k < |r| ==> idx[k] < |missing| && r[k] == missing[idx[k]])
            && (forall k, l :: 0 <= k < l < |idx| ==> idx[k] < idx[l])
            && (forall i :: 0 <= i < |missing| && i !in idx ==> missing[i].id !in selected)
  {
    FilterIndicesCorrect(missing, SelectedIn(selected));
    Filter(missing, SelectedIn(selected))
  }

  /** With everyone selected, as after loading, everyone listed is sent to. */
  lemma LoadedSelectionSendsToAll(missing: seq<ListedDevotee>)
    ensures Recipients(missing, IdsOf(missing)) == missing
  {
    forall k | 0 <= k < |missing| ensures SelectedIn(IdsOf(missing))(missing[k]) {
      assert IdsOf(missing)[k] == missing[k].id;
    }
    FilterKeepsAll(missing, SelectedIn(IdsOf(missing)));
  }

  /** What fetching the list resolves to; the list may be absent from the answer. */
  datatype FetchResult = Fetched(missingDevotees: Option<seq<ListedDevotee>>) | FetchFailed

  /** What sending the reminders resolves to. */
  datatype SendResult = RemindersSent(successCount: nat, totalSent: nat) | RemindersFailed(message: Option<string>)

  const NoSelectionError: string := "Please select at least one devotee"
  const NoMessageError: string := "Please enter a message"
  const LoadFailedError: string := "Failed to load devotees list"
  const SendFailedFallback: string := "Failed to send messages. Please check your Twilio configuration."

  /** The success line: a check mark, then "(successCount/totalSent)". */
  function SentMessage(successCount: nat, totalSent: nat): string {
    "\U{2705} Messages sent successfully! (" + NatToString(successCount) + "/" + NatToString(totalSent) + ")"
  }

  /** The page's state. */
  class MessagingPage {
    var missingDevotees: seq<ListedDevotee>
    var selectedDevotees: seq<UserId>
    var message: string
    var error: string
    var success: string
    var loading: bool
    var sending: bool

    constructor (message: string)
      ensures missingDevotees == [] && selectedDevotees == [] && this.message == message
      ensures error == "" && success == "" && !loading && !sending
    {
      missingDevotees := [];
      selectedDevotees := [];
      this.message := message;
      error := "";
      success := "";
      loading := false;
      sending := false;
    }

    /** `fetchMissingSubmissions`: a loaded list replaces the old one and is selected in full. */
    method FetchMissingSubmissions(result: FetchResult)
      modifies this
      ensures result.Fetched? ==>
                && missingDevotees == result.missingDevotees.GetOr([])
                && selectedDevotees == IdsOf(missingDevotees)
                && error == old(error)
      ensures result.FetchFailed? ==>
                && missingDevotees == old(missingDevotees) && selectedDevotees == old(selectedDevotees)
                && error == LoadFailedError
      ensures message == old(message) && success == old(success) && sending == old(sending) && !loading
    {
      loading := true;
      if result.Fetched? {
        missingDevotees := result.missingDevotees.GetOr([]);
        selectedDevotees := IdsOf(missingDevotees);
      } else {
        error := LoadFailedError;
      }
      loading := false;
    }

    /** `handleToggleDevotee` */
    method HandleToggleDevotee(id: UserId)
      modifies this
      ensures selectedDevotees == Toggle(old(selectedDevotees), id)
      ensures missingDevotees == old(missingDevotees) && message == old(message)
      ensures error == old(error) && success == old(success)
      ensures loading == old(loading) && sending == old(sending)
    {
      selectedDevotees := Toggle(selectedDevotees, id);
    }

    /** `handleSelectAll` */
    method HandleSelectAll()
      modifies this
      ensures selectedDevotees == SelectAll(old(selectedDevotees), missingDevotees)
      ensures missingDevotees == old(missingDevotees) && message == old(message)
      ensures error == old(error) && success == old(success)
      ensures loading == old(loading) && sending == old(sending)
    {
      if |selectedDevotees| == |missingDevotees| {
        selectedDevotees := [];
      } else {
        selectedDevotees := IdsOf(missingDevotees);
      }
    }

    /**
     * `handleSendMessages`: refused, with nothing sent, when nothing is
     * selected or the message is blank; otherwise the selected listed
     * devotees are sent the message once, and the outcome is shown.
     */
    method HandleSendMessages(sendReminder: (seq<ListedDevotee>, string) -> SendResult)
      returns (sent: Option<seq<ListedDevotee>>)
      modifies this
      ensures missingDevotees == old(missingDevotees) && selectedDevotees == old(selectedDevotees)
      ensures message == old(message) && loading == old(loading)
      ensures sent.None? ==> success == old(success) && sending == old(sending)
      ensures sent.None? <==> selectedDevotees == [] || AllWhitespace(message)
      ensures selectedDevotees == [] ==> error == NoSelectionError
      ensures selectedDevotees != [] && AllWhitespace(message) ==> error == NoMessageError
      ensures sent.Some? ==> sent.value == Recipients(missingDevotees, selectedDevotees) && !sending
      ensures sent.Some? && sendReminder(sent.value, message).RemindersSent? ==>
                var r := sendReminder(sent.value, message);
                success == SentMessage(r.successCount, r.totalSent) && error == ""
      ensures sent.Some? && sendReminder(sent.value, message).RemindersFailed? ==>
                var m := sendReminder(sent.value, message).message;
                success == "" && error == (if m.Some? && m.value != "" then m.value else SendFailedFallback)
    {
      if |selectedDevotees| == 0 {
        error := NoSelectionError;
        return None;
      }
      if Trim(message) == "" {
        error := NoMessageError;
        return None;
      }
      sending := true;
      error := "";
      success := "";
      var devotees := Recipients(missingDevotees, selectedDevotees);
      var response := sendReminder(devotees, message);
      if response.RemindersSent? {
        success := SentMessage(response.successCount, response.totalSent);
      } else if response.message.Some? && response.message.value != "" {
        error := response.message.value;
      } else {
        error := SendFailedFallback;
      }
      sending := false;
      sent := Some(devotees);
    }
  }
}

=== FILE: src/wrappers.dfy ===
/** Optional values: a JavaScript `undefined`/`null`/`NaN` where the source may lack a value. */
module Wrappers {

  datatype Option<+T> = None | Some(value: T) {

    /** The value, or `default` when there is none (JavaScript's `x || default` on present values). */
    function GetOr(default: T): T {
      match this
      case Some(v) => v
      case None => default
    }
  }
}
